=== FILE: README.md ===
# ResearchXpert core in Dafny

ResearchXpert lets a user upload a research paper, ask questions about it and discover related
papers. This project models the deterministic core of that pipeline and proves properties of it:

- **Text normaliser** (`clean_text`): collapses newline runs and blank runs, then strips.
- **Chunker** (`chunk_text`): overlapping windows of words, rejoined with single spaces.
- **Hit filter** (`get_top_k`): zips the index's ids with their scores and drops the `-1`
  "no match" sentinel.
- **Context budgeter and answer step** (`answer_with_groq`):
  - keeps the rank-ordered prefix of hits whose chunks fit a 4000-word budget;
  - labels each kept chunk `Excerpt i:`;
  - builds the chat request;
  - reads the answer, or the error, out of the response.
- **Paper discovery** (`_clean_query`, `find_related_papers`):
  - sanitises the topic into a query;
  - skips the search for short queries;
  - maps the search records onto display records, with defaults for missing fields.

Modules:

- `Wrappers`: `Option` and `Result`.
- `PyStr`: the Python string built-ins the code relies on, with their exact semantics:
  - `str.isspace` as a concrete character set;
  - `split()`, `sep.join`, `strip()`;
  - slices with negative bounds, list indexing with negative indices;
  - `str(n)`.
- `Runs`: the `re.sub` whitespace rewrites, as one character-level scan.
- `TextUtils`, `EmbeddingsUtils`, `QaUtils`, `ScholarUtils`: one module per source file.

Collaborators outside the model are parameters:

- The embedding plus the FAISS search is `search: (string, int) -> SearchRow`. It returns one
  row of scores and one row of ids.
- The chat endpoint is `complete: ChatRequest -> ChatOutcome`. It gives either the decoded
  response or `CallRaised`, for a connection error, a timeout or a body that is not JSON.
- The Semantic Scholar request is `fetch: SearchParams -> FetchOutcome`. A transport error, a
  bad status and an undecodable body, which the source all catches, are one `FetchFailed`
  outcome.

Where the code's own comments and docstrings promise more than the code does, the model
follows the code:

- `clean_text` collapses only runs of `' '` and `'\t'`, the class `[ \t]`. Its comment says
  "all other runs of whitespace", but other horizontal whitespace is left alone. A single tab
  is also left alone, because the pattern needs two characters.
- The `chunk_text` docstring calls `chunk_size` the target number of words per chunk. The only
  check is `chunk_size <= overlap`, so a negative `chunk_size` is accepted. It then becomes a
  negative slice end, which Python counts from the end of the word list.
  `TextUtils.NegativeSizeFirstWindow` shows a first chunk of `N - 1` words for
  `chunk_size = -1`, `overlap = -5`. The at-most-`chunk_size` bound is proved for
  `chunk_size >= 0`.
- The budget is named `max_total_tokens`, but it bounds `str.split()` words. The model calls it
  `MaxTotalWords`.

## Model

| member | source | states |
|---|---|---|
| PyStr.Split | text_utils.py:43 | `str.split()` yields only nonempty words free of whitespace |
| PyStr.SplitJoinWords | text_utils.py:49 | joining words with one space and splitting again returns exactly those words |
| PyStr.JoinSplitSingleSpaced | scholar_utils.py:8 | a string with single spaces only between words is the space-join of its own words |
| PyStr.JoinWithEmpty | scholar_utils.py:38 | a join with a nonempty separator is empty exactly when there are no parts or one empty part |
| PyStr.JoinWith | qa_utils.py:47 | `sep.join(parts)`; its layout is stated by `JoinWithPart`, `JoinWithSeparator` and `JoinWithEmpty`, its inverse by `SplitJoinWords` |
| PyStr.JoinWithPart | qa_utils.py:47 | every part stands unchanged at its offset in the join, and the last part ends it |
| PyStr.JoinWithSeparator | qa_utils.py:47 | the separator follows every part but the last |
| PyStr.Strip | text_utils.py:19 | `strip()` returns a contiguous slice of its input, removes only whitespace, and leaves no whitespace at either end |
| PyStr.StripUnchanged | text_utils.py:19 | a string without whitespace at either end is its own strip |
| PyStr.SplitStrip | text_utils.py:19 | stripping removes no word |
| PyStr.PySlice | text_utils.py:49 | `words[start:end]` with Python's bounds: negative ends count from the end, out-of-range ends are clamped; its meaning is stated by `PySliceConcat` |
| PyStr.PySliceConcat | scholar_utils.py:9 | for every cut position, negative or past the end, `s[:i] + s[i:]` is `s` |
| PyStr.PyIndex | qa_utils.py:32 | `chunks[idx]` with Python's negative indices; its meaning is stated by `PyIndexSlice` and `PyIndexAliases` |
| PyStr.PyIndexSlice | qa_utils.py:32 | `chunks[idx]` is the single element of the slice at `idx` (`s[-1:]` for `-1`), and raises exactly when that slice is empty |
| PyStr.PyIndexAliases | qa_utils.py:32 | every chunk is reached both by its position and by its position minus the length |
| PyStr.Decimal | qa_utils.py:35 | `str(n)` is a nonempty digit string without a leading zero unless n is 0 |
| PyStr.ParseDecimalRoundTrip | qa_utils.py:35 | the rank printed in an excerpt label reads back as the same number |
| Runs.Collapse | text_utils.py:16-18 | a run rewrite never lengthens the text and never empties nonempty text; what it does to each run is stated by `CollapseRun` and `CollapseOther` |
| Runs.CollapseRun | text_utils.py:16-18 | a maximal run of class characters becomes the single replacement in its place (a run of one is kept as it is under `X{2,}`), and the text after it is rewritten on its own |
| Runs.CollapseInRun | text_utils.py:16-18 | once a run has been replaced, the rest of that run is dropped and the scan resumes after it |
| Runs.CollapseOther | text_utils.py:16-18 | a character outside the class is copied unchanged and ends any run before it |
| Runs.CollapseNoAdjacent | text_utils.py:16-18 | after a run rewrite no two characters of the class are neighbours |
| Runs.CollapseKeepsNoAdjacent | text_utils.py:16-18 | the blank rewrite does not bring two newlines together again |
| Runs.CollapseUnchanged | text_utils.py:16-18 | a `X{2,}` rewrite leaves text without adjacent class characters unchanged |
| Runs.CollapseChars | scholar_utils.py:8 | after `\s+` -> `" "` the only whitespace character left is the space |
| Runs.CollapseSplit | text_utils.py:16-18 | rewriting whitespace runs to a whitespace character changes no word of `split()` |
| TextUtils.CollapseNewlines | text_utils.py:16 | no two newlines stay adjacent, no word changes, and text without blank lines is unchanged; each run of two or more newlines becomes one newline in its place (`CollapseRun`) |
| TextUtils.CollapseBlanks | text_utils.py:18 | no two of `[ \t]` stay adjacent, no two newlines are brought together, no word changes, and text without such runs is unchanged; each run of two or more becomes one space in its place (`CollapseRun`) |
| TextUtils.CleanText | text_utils.py:10-19 | the result has no two adjacent newlines, no two adjacent blanks, no whitespace at either end, and the same words as the input; text without such runs is only stripped, so its single newlines and tabs stay where they are |
| TextUtils.CleanTextIdempotent | text_utils.py:10-19 | cleaning cleaned text changes nothing |
| TextUtils.ChunkText | text_utils.py:40-52 | fails exactly when `chunk_size <= overlap`; otherwise yields ceil(N / step) chunks, chunk i being the space-join of its word window, which splits back to that window; no words give no chunks |
| TextUtils.ChunkRoundTrip | text_utils.py:43-49 | splitting a chunk gives back exactly the words of its window |
| TextUtils.ChunkCount | text_utils.py:45-50 | there are no more chunks than words, and at least one when there is a word; its exact value is stated by `ChunkCountBounds` |
| TextUtils.StartsBelow | text_utils.py:45-50 | chunk i exists exactly when the loop's start after i steps is below the word count, and there is no chunk exactly when there are no words |
| TextUtils.StartOfProduct | text_utils.py:45-50 | after i steps the loop's start is `i * (chunk_size - overlap)` |
| TextUtils.ChunkCountBounds | text_utils.py:47-50 | chunk i exists exactly when `i * step` is below the word count, so the count is the ceiling of N / step |
| TextUtils.WindowIsSlice | text_utils.py:48-49 | for `chunk_size >= 0` a window is `words[start:min(start+size, N)]`, has at most `chunk_size` words, and at least one when `chunk_size >= 1` |
| TextUtils.Window | text_utils.py:47-49 | for `chunk_size >= 0` no chunk holds more than `chunk_size` words, and, for `chunk_size >= 1`, a chunk starting before the end holds at least one; its slice is stated by `WindowIsSlice` |
| TextUtils.NegativeSizeFirstWindow | text_utils.py:48-49 | with `chunk_size = -1, overlap = -5` the first chunk is every word but the last |
| TextUtils.FirstWindow | text_utils.py:45-49 | for `chunk_size >= 0` and at least one word, the first chunk is the first `min(chunk_size, N)` words |
| TextUtils.LastWindow | text_utils.py:47-50 | with `overlap >= 0` the last chunk runs to the last word (it may be short, never padded) |
| TextUtils.Coverage | text_utils.py:47-50 | with `overlap >= 0` every word lies in window `k / step`, at its position in that window |
| TextUtils.OverlapShared | text_utils.py:48-50 | a full chunk's last `overlap` words are the next chunk's first `overlap` words |
| TextUtils.StitchWindows | text_utils.py:43-52 | dropping each later chunk's overlap and concatenating rebuilds the word sequence |
| EmbeddingsUtils.Zip | embeddings_utils.py:56 | `zip` pairs position i of ids and scores, up to the shorter length |
| EmbeddingsUtils.DropNoMatch | embeddings_utils.py:54-58 | a pair is kept exactly when its id is not `-1` |
| EmbeddingsUtils.TopK | embeddings_utils.py:53-58 | no more hits than ids; no `-1` id; every hit is a search pair, and every non-sentinel pair is a hit |
| EmbeddingsUtils.DropNoMatchSubsequence | embeddings_utils.py:54-58 | the filter keeps the pairs in their order |
| EmbeddingsUtils.DropNoMatchAppend | embeddings_utils.py:54-58 | filtering distributes over concatenation |
| EmbeddingsUtils.TopKInOrder | embeddings_utils.py:53-58 | the hits are a subsequence of the zipped search row |
| EmbeddingsUtils.TopKIdsInRange | embeddings_utils.py:53-58 | when the search reports only ids below n or the `-1` sentinel, every hit id is in `[0, n)` |
| EmbeddingsUtils.TopKAtMostK | embeddings_utils.py:53-58 | a search for k neighbours yields at most k hits |
| EmbeddingsUtils.DropNoMatchDescending | embeddings_utils.py:54-58 | filtering keeps scores in descending order |
| EmbeddingsUtils.TopKDescending | embeddings_utils.py:53-58 | hits come in descending score order when the index ranks them so |
| QaUtils.HitWords | qa_utils.py:32 | a hit's chunk is found exactly when its index is in Python range; its words are words |
| QaUtils.SelectFrom | qa_utils.py:29-36 | the budget loop from a given position and running total; stated by `SelectFromKept`, `SelectFromStop`, `SelectFromFailure` and `SelectFromResolvable` |
| QaUtils.SelectFromKept | qa_utils.py:31-36 | from any loop position the kept excerpts are those of the next hits, each naming a chunk, within the budget, and labelled with their 1-based positions |
| QaUtils.SelectFromStop | qa_utils.py:33-34 | when the loop ends early, the hit it stopped at names a chunk whose words would take the total past the budget |
| QaUtils.SelectFromFailure | qa_utils.py:31-32 | an `IndexError` means the loop reached, within budget, a hit that names no chunk |
| QaUtils.SelectFromResolvable | qa_utils.py:31-36 | when every remaining hit names a chunk the loop does not fail |
| QaUtils.SelectExcerpts | qa_utils.py:28-36 | the excerpts are the labelled chunks of the longest hit prefix within the 4000-word budget, each labelled with its 1-based rank; out-of-range hits reached raise `IndexError` |
| QaUtils.TopHitFits | qa_utils.py:31-36 | if the top hit alone fits and the loop raises no `IndexError`, at least one excerpt is kept |
| QaUtils.StopsAtFirstOverflow | qa_utils.py:31-34 | when hit j is the first to overflow, exactly j excerpts are kept, even if later hits would fit |
| QaUtils.ExcerptLabel | qa_utils.py:35 | the label `Excerpt {i+1}:` and a newline; stated by `ExcerptWords` |
| QaUtils.Excerpt | qa_utils.py:35 | the label followed by the chunk's words joined by single spaces; stated by `ExcerptWords` |
| QaUtils.ExcerptWords | qa_utils.py:35 | an excerpt splits into `Excerpt`, the rank with a colon, then the chunk's words |
| QaUtils.BuildUserMessage | qa_utils.py:47 | the excerpts joined by blank lines, then the question marker and the question; stated by the three `UserMessage*` lemmas |
| QaUtils.UserMessageQuestion | qa_utils.py:47 | the user message ends with the question marker and the question, and is only those without excerpts |
| QaUtils.UserMessageLayout | qa_utils.py:47 | each excerpt appears unchanged at its offset in the user message |
| QaUtils.UserMessageSeparator | qa_utils.py:47 | a blank line separates each excerpt from the next one in the user message |
| QaUtils.InterpretResponse | qa_utils.py:63-66 | success exactly when `choices` is present and nonempty; missing `choices` is an upstream error; an empty list is `IndexError`; the answer is the first content with only its ends stripped, no longer than it, with the same words |
| QaUtils.ErrorMessage | qa_utils.py:64 | `res.get("error", {}).get("message", "Groq API error")`; stated by `UpstreamMessage` |
| QaUtils.UpstreamMessage | qa_utils.py:63-64 | the upstream error carries the provider's message, or `Groq API error` when there is none |
| QaUtils.PrepareRequest | qa_utils.py:38-51 | the payload built from the budgeted excerpts and the question; its meaning is stated by `RequestCarriesExcerpt` and `RequestEndsWithQuestion` |
| QaUtils.RequestCarriesExcerpt | qa_utils.py:31-47 | the request has the fixed system instruction and the caller's `max_tokens`, and kept hit t's chunk words, labelled `Excerpt t+1`, stand unchanged at that excerpt's place in the user message |
| QaUtils.MessageCarriesExcerpt | qa_utils.py:31-47 | for any budget, kept hit t's chunk words, labelled `Excerpt t+1`, stand unchanged at that excerpt's place in the user message |
| QaUtils.RequestEndsWithQuestion | qa_utils.py:28-47 | the user message ends with the question marker and the question, is only those when no hit was kept, and its chunks total at most 4000 words |
| QaUtils.AnswerWithGroq | qa_utils.py:18-66 | returns every retrieved hit, not just the budgeted ones, with the interpreted completion; a selection failure, an exception of the HTTP call or an error response each make it fail with that error; in-range hits always yield a request |
| ScholarUtils.MaskPunctuation | scholar_utils.py:7 | every character other than an ASCII letter, digit or whitespace becomes a space; the others are kept |
| ScholarUtils.SquashSpaces | scholar_utils.py:8 | no two whitespace characters stay adjacent, the space is the only whitespace left, and no word changes |
| ScholarUtils.CleanQuery | scholar_utils.py:5-9 | the query holds only letters, digits and spaces, never starts with a space, has no two adjacent spaces, and for `max_len >= 0` is at most `max_len` long |
| ScholarUtils.CleanQueryIsJoinedWords | scholar_utils.py:5-9 | the query is the masked text's words joined by single spaces, then truncated |
| ScholarUtils.TruncationKeepsTrailingSpace | scholar_utils.py:8-9 | truncation after stripping can leave a trailing space, so cleaning twice differs from cleaning once |
| ScholarUtils.AuthorLine | scholar_utils.py:38 | `Unknown` exactly when the names join to nothing (missing, no authors, or one empty name); otherwise the names joined by `, ` |
| ScholarUtils.ToRelatedPaper | scholar_utils.py:38-45 | the dictionary built for one record; its meaning is stated by `DefaultsOnlyWhenMissing` |
| ScholarUtils.DefaultsOnlyWhenMissing | scholar_utils.py:37-45 | a displayed field holds its default only when the key is missing or the record itself holds that value; `n.d.` only for a missing year; the author line is never empty |
| ScholarUtils.SearchRequest | scholar_utils.py:16-26 | no request exactly when the cleaned query is shorter than 4; otherwise the cleaned query, the limit and the four fields |
| ScholarUtils.Records | scholar_utils.py:36 | `data.get("data", [])` with a failed fetch read as no records; its meaning is stated by `FindRelatedPapers` |
| ScholarUtils.ToRelatedPapers | scholar_utils.py:35-47 | one display record per search record, in order |
| ScholarUtils.FindRelatedPapers | scholar_utils.py:11-47 | a short query gives no papers whatever the service holds; otherwise a failed fetch or a body without `data` gives no papers, and a fetched list gives one mapped record per record, in order |
| ScholarUtils.ShortTopicSkipsSearch | scholar_utils.py:16-19 | the topic `ab` cleans to two characters, makes no request and yields no papers |

## Left out

- Embedding the question and the chunks, L2 normalisation and the FAISS index are not
  modelled; they are the `search` parameter. The self-similarity of a chunk with itself is a
  property of the embedding model and is not stated.
- The HTTP calls themselves, their timeouts, the bearer header, the model name and the `0.3`
  temperature are not modelled. The `fetch` and `complete` parameters stand for the calls.
  Their outcomes are modelled: any exception of the discovery request is one `FetchFailed`,
  which the source catches. Any exception of the chat request is one `CallRaised`, which the
  source lets propagate, and `AnswerWithGroq` fails with `RequestRaised`.
- The default arguments (`chunk_size=400`, `overlap=80`, `k=4`, `max_tokens=400`, `limit=5`)
  are not modelled separately. Every operation takes these values as parameters.
- `load_dotenv` and the missing-key `RuntimeError` raised at import time are left out. They
  are environment checks outside the request logic.
- `app.py` (Streamlit UI, PDF extraction, session state) is presentation code and is left out.
- JSON `null` values are not modelled. A record field is either present with a value or
  missing. A present `null` title, year or url would be returned as `None`.
- An author entry without `"name"`, a body that is not a JSON object, and a choice without
  `message.content` raise exceptions in the source that the model does not represent.
- TextUtils.WindowIsSlice: the at-most-`chunk_size` bound is stated only for `chunk_size >= 0`,
  because a negative size is a negative Python slice end (see `NegativeSizeFirstWindow`).
- TextUtils.Window: the size bound is stated only for `chunk_size >= 0`, for the same reason. A
  chunk is nonempty only for `chunk_size >= 1`: with `chunk_size = 0` every chunk is empty, as in
  the program, which then yields empty-string chunks.
- TextUtils.FirstWindow: stated for `chunk_size >= 0`, because a negative size is a negative
  slice end (see `NegativeSizeFirstWindow`).
- TextUtils.OverlapShared, TextUtils.LastWindow, TextUtils.StitchWindows and TextUtils.Coverage: stated for
  `overlap >= 0`. A negative overlap makes the step larger than the window, so chunks skip
  words and share none.
- ScholarUtils.CleanQuery: the length bound is stated for `max_len >= 0`. A negative `max_len` is a
  negative slice end, which drops that many characters from the end; no bound is stated for it.
- EmbeddingsUtils.TopKIdsInRange: that every id the search reports is `-1` or below the number of
  indexed vectors is a property of the index; it is assumed of the search row, and the model
  proves only that the filter removes the `-1` sentinels.
- EmbeddingsUtils.TopKDescending: the descending order of scores is a property of the index
  search; it is assumed of the search row, and the model proves the filter preserves it.

=== FILE: embeddings_utils.dfy ===
/** embeddings_utils.py, `get_top_k`: the step that turns the similarity index's answer into
    `(chunk_id, score)` hits. Encoding the query, normalising it and searching the index are
    done by libraries outside this model; their answer arrives as a `SearchRow`. */
module EmbeddingsUtils {

  /** A retrieved chunk: its position in the chunk list and its similarity score. */
  datatype Hit = Hit(id: int, score: real)

  /** The first row of what `index.search(q, k)` returns: `k` scores and `k` chunk ids. */
  datatype SearchRow = SearchRow(scores: seq<real>, ids: seq<int>)

  /** The id the index reports when it has fewer than `k` vectors to return. */
  const NoMatch := -1

  /** Python's `zip(ids, scores)`: pairs position by position, as long as the shorter row. */
  function Zip(ids: seq<int>, scores: seq<real>): (r: seq<Hit>)
    ensures |r| == if |ids| <= |scores| then |ids| else |scores|
    ensures forall i :: 0 <= i < |r| ==> r[i] == Hit(ids[i], scores[i])
    decreases |ids|
  {
    if |ids| == 0 || |scores| == 0 then []
    else [Hit(ids[0], scores[0])] + Zip(ids[1..], scores[1..])
  }

  /** The comprehension's filter `if idx != -1`. */
  function DropNoMatch(pairs: seq<Hit>): (r: seq<Hit>)
    ensures |r| <= |pairs|
    ensures forall h :: h in r <==> h in pairs && h.id != NoMatch
    decreases |pairs|
  {
    if |pairs| == 0 then []
    else (if pairs[0].id != NoMatch then [pairs[0]] else []) + DropNoMatch(pairs[1..])
  }

  /** The hits `get_top_k` returns for one search row. */
  function TopK(row: SearchRow): (r: seq<Hit>)
    ensures |r| <= |row.ids| && |r| <= |row.scores|
    ensures forall h :: h in r ==> h.id != NoMatch
    ensures forall h :: h in r ==> exists i :: 0 <= i < |row.ids| && i < |row.scores| && h == Hit(row.ids[i], row.scores[i])
    ensures forall i :: 0 <= i < |row.ids| && i < |row.scores| && row.ids[i] != NoMatch ==>
      Hit(row.ids[i], row.scores[i]) in r
  {
    var pairs := Zip(row.ids, row.scores);
    assert forall i :: 0 <= i < |pairs| ==> pairs[i] in pairs;
    DropNoMatch(pairs)
  }

  /** `a` is `b` with some elements left out and the rest kept in order. */
  predicate IsSubsequence(a: seq<Hit>, b: seq<Hit>)
    decreases |b|
  {
    if |a| == 0 then true
    else if |b| == 0 then false
    else if a[0] == b[0] then IsSubsequence(a[1..], b[1..])
    else IsSubsequence(a, b[1..])
  }

  /** The filter keeps the surviving pairs in their original order. */
  lemma {:induction false} DropNoMatchSubsequence(pairs: seq<Hit>)
    ensures IsSubsequence(DropNoMatch(pairs), pairs)
    decreases |pairs|
  {
    if |pairs| > 0 {
      DropNoMatchSubsequence(pairs[1..]);
      var r := DropNoMatch(pairs);
      if pairs[0].id == NoMatch && |r| > 0 {
        assert r == DropNoMatch(pairs[1..]);
        assert r[0] in r;
        assert r[0] != pairs[0];
      } else if pairs[0].id != NoMatch {
        assert r[1..] == DropNoMatch(pairs[1..]);
      }
    }
  }

  /** The filter distributes over concatenation, so it is fixed by what it does to one pair. */
  lemma {:induction false} DropNoMatchAppend(a: seq<Hit>, b: seq<Hit>)
    ensures DropNoMatch(a + b) == DropNoMatch(a) + DropNoMatch(b)
    decreases |a|
  {
    if |a| == 0 {
      assert a + b == b;
    } else {
      assert (a + b)[0] == a[0];
      assert (a + b)[1..] == a[1..] + b;
      DropNoMatchAppend(a[1..], b);
    }
  }

  /** `get_top_k` keeps exactly the zipped pairs whose id is not the no-match sentinel, in order. */
  lemma TopKInOrder(row: SearchRow)
    ensures IsSubsequence(TopK(row), Zip(row.ids, row.scores))
  {
    DropNoMatchSubsequence(Zip(row.ids, row.scores));
  }

  /** When the index only reports ids of its `n` chunks or the sentinel, every hit names a chunk. */
  lemma TopKIdsInRange(row: SearchRow, n: nat)
    requires forall i :: 0 <= i < |row.ids| ==> row.ids[i] == NoMatch || 0 <= row.ids[i] < n
    ensures forall h :: h in TopK(row) ==> 0 <= h.id < n
  {
  }

  /** The hits are at most `k`, the row length the search was asked for. */
  lemma TopKAtMostK(row: SearchRow, k: nat)
    requires |row.ids| == k
    ensures |TopK(row)| <= k
  {
  }

  predicate ScoresDescending(hs: seq<Hit>) {
    forall i, j :: 0 <= i < j < |hs| ==> hs[i].score >= hs[j].score
  }

  /** Scores the index returns in descending order stay in descending order after the filter. */
  lemma {:induction false} DropNoMatchDescending(pairs: seq<Hit>)
    requires ScoresDescending(pairs)
    ensures ScoresDescending(DropNoMatch(pairs))
    decreases |pairs|
  {
    if |pairs| > 0 {
      DescendingTail(pairs);
      DropNoMatchDescending(pairs[1..]);
      var rest := DropNoMatch(pairs[1..]);
      if pairs[0].id != NoMatch {
        forall x | x in rest
          ensures pairs[0].score >= x.score
        {
          var k :| 0 <= k < |pairs[1..]| && pairs[1..][k] == x;
          assert pairs[k + 1] == x;
        }
        DescendingCons(pairs[0], rest);
      }
    }
  }

  lemma DescendingTail(hs: seq<Hit>)
    requires |hs| > 0 && ScoresDescending(hs)
    ensures ScoresDescending(hs[1..])
  {
    forall i, j | 0 <= i < j < |hs[1..]|
      ensures hs[1..][i].score >= hs[1..][j].score
    {
      assert hs[1..][i] == hs[i + 1] && hs[1..][j] == hs[j + 1];
    }
  }

  lemma DescendingCons(h: Hit, rest: seq<Hit>)
    requires ScoresDescending(rest)
    requires forall x :: x in rest ==> h.score >= x.score
    ensures ScoresDescending([h] + rest)
  {
    var r := [h] + rest;
    forall i, j | 0 <= i < j < |r|
      ensures r[i].score >= r[j].score
    {
      assert r[j] == rest[j - 1];
      if i > 0 {
        assert r[i] == rest[i - 1];
      }
    }
  }

  lemma TopKDescending(row: SearchRow)
    requires forall i, j :: 0 <= i < j < |row.scores| ==> row.scores[i] >= row.scores[j]
    ensures ScoresDescending(TopK(row))
  {
    DropNoMatchDescending(Zip(row.ids, row.scores));
  }
}

=== FILE: py_str.dfy ===
/** The parts of Python's built-in `str` and `list` behaviour the program relies on:
    the whitespace class, `str.split()`, `sep.join(...)`, `str.strip()`, slicing with
    possibly negative bounds, list indexing, and the decimal rendering of an `int`. */
module PyStr {
  import opened Wrappers

  /** The characters for which Python's `str.isspace()` holds. The same set is what
      `str.split()` and `str.strip()` with no argument, and the regular-expression class
      `\s` on a `str` pattern, treat as whitespace. */
  const Whitespace: set<char> := {
    '\t', '\n', '\U{0B}', '\U{0C}', '\r', '\U{1C}', '\U{1D}', '\U{1E}', '\U{1F}', ' ',
    '\U{85}', '\U{A0}', '\U{1680}',
    '\U{2000}', '\U{2001}', '\U{2002}', '\U{2003}', '\U{2004}', '\U{2005}',
    '\U{2006}', '\U{2007}', '\U{2008}', '\U{2009}', '\U{200A}',
    '\U{2028}', '\U{2029}', '\U{202F}', '\U{205F}', '\U{3000}'
  }

  predicate IsSpace(c: char) {
    c in Whitespace
  }

  /** Printable ASCII other than the space is never whitespace. */
  lemma PrintableNotSpace(s: string)
    requires forall i :: 0 <= i < |s| ==> '!' <= s[i] <= '~'
    ensures SpaceFree(s)
  {
  }

  predicate SpaceFree(s: string) {
    forall i :: 0 <= i < |s| ==> !IsSpace(s[i])
  }

  /** What `str.split()` can return as one element: a non-empty run of non-whitespace. */
  predicate IsWord(w: string) {
    |w| > 0 && SpaceFree(w)
  }

  predicate AllWords(ws: seq<string>) {
    forall i :: 0 <= i < |ws| ==> IsWord(ws[i])
  }

  // ---------------------------------------------------------------------------
  // str.split()
  // ---------------------------------------------------------------------------

  function Flush(cur: string): seq<string> {
    if cur == [] then [] else [cur]
  }

  /** Scans `s` left to right; `cur` is the word read so far and not yet emitted. */
  function SplitFrom(s: string, cur: string): seq<string>
    decreases |s|
  {
    if |s| == 0 then Flush(cur)
    else if IsSpace(s[0]) then Flush(cur) + SplitFrom(s[1..], [])
    else SplitFrom(s[1..], cur + [s[0]])
  }

  /** Python's `s.split()`: the maximal runs of non-whitespace characters, in order. */
  function Split(s: string): (ws: seq<string>)
    ensures AllWords(ws)
  {
    SplitFromWords(s, []);
    SplitFrom(s, [])
  }

  lemma {:induction false} SplitFromWords(s: string, cur: string)
    requires SpaceFree(cur)
    ensures AllWords(SplitFrom(s, cur))
    decreases |s|
  {
    if |s| == 0 {
    } else if IsSpace(s[0]) {
      SplitFromWords(s[1..], []);
    } else {
      SplitFromWords(s[1..], cur + [s[0]]);
    }
  }

  /** A prefix without whitespace joins the pending word. */
  lemma {:induction false} SplitFromSpaceFree(w: string, t: string, cur: string)
    requires SpaceFree(w)
    ensures SplitFrom(w + t, cur) == SplitFrom(t, cur + w)
    decreases |w|
  {
    if |w| == 0 {
      assert w + t == t;
      assert cur + w == cur;
    } else {
      assert (w + t)[0] == w[0];
      assert (w + t)[1..] == w[1..] + t;
      SplitFromSpaceFree(w[1..], t, cur + [w[0]]);
      assert cur + [w[0]] + w[1..] == cur + w;
    }
  }

  /** A prefix that ends in whitespace is split on its own: no word straddles the boundary. */
  lemma {:induction false} SplitFromAppend(a: string, b: string, cur: string)
    requires |a| > 0 && IsSpace(a[|a| - 1])
    ensures SplitFrom(a + b, cur) == SplitFrom(a, cur) + SplitFrom(b, [])
    decreases |a|
  {
    assert (a + b)[0] == a[0];
    assert (a + b)[1..] == a[1..] + b;
    if |a| == 1 {
      assert a[1..] == [];
      assert a[1..] + b == b;
    } else if IsSpace(a[0]) {
      SplitFromAppend(a[1..], b, []);
    } else {
      SplitFromAppend(a[1..], b, cur + [a[0]]);
    }
  }

  /** `str.split()` of a concatenation whose left part ends in whitespace. */
  lemma SplitAppend(a: string, b: string)
    requires |a| > 0 && IsSpace(a[|a| - 1])
    ensures Split(a + b) == Split(a) + Split(b)
  {
    SplitFromAppend(a, b, []);
  }

  /** Whitespace contributes no word. */
  lemma {:induction false} SplitFromSpaces(s: string)
    requires forall i :: 0 <= i < |s| ==> IsSpace(s[i])
    ensures SplitFrom(s, []) == []
    decreases |s|
  {
    if |s| > 0 {
      SplitFromSpaces(s[1..]);
    }
  }

  /** Trailing whitespace closes the pending word and adds nothing else. */
  lemma {:induction false} SplitFromTrailingSpaces(t: string, sp: string, cur: string)
    requires forall i :: 0 <= i < |sp| ==> IsSpace(sp[i])
    ensures SplitFrom(t + sp, cur) == SplitFrom(t, cur)
    decreases |t|
  {
    if |t| == 0 {
      assert t + sp == sp;
      if |sp| > 0 {
        SplitFromSpaces(sp[1..]);
      }
    } else {
      assert (t + sp)[0] == t[0];
      assert (t + sp)[1..] == t[1..] + sp;
      if IsSpace(t[0]) {
        SplitFromTrailingSpaces(t[1..], sp, []);
      } else {
        SplitFromTrailingSpaces(t[1..], sp, cur + [t[0]]);
      }
    }
  }

  /** A word followed by whitespace is split off as the first word. */
  lemma SplitLeadingWord(w: string, sp: char, rest: string)
    requires IsWord(w) && IsSpace(sp)
    ensures Split(w + [sp] + rest) == [w] + Split(rest)
  {
    SplitAppend(w + [sp], rest);
    SplitFromSpaceFree(w, [sp], []);
    assert [] + w == w;
    assert [sp][1..] == [];
  }

  /** A slice that lies inside the left operand of a concatenation. */
  lemma SliceOfAppend(a: string, b: string, lo: nat, hi: nat)
    requires lo <= hi <= |a|
    ensures (a + b)[lo..hi] == a[lo..hi]
  {
  }

  /** A slice of the second half of a concatenation, shifted by the first half's length. */
  lemma SliceAfterPrefix(a: string, b: string, lo: nat, hi: nat)
    requires lo <= hi <= |b|
    ensures (a + b)[|a| + lo .. |a| + hi] == b[lo..hi]
  {
  }

  /** The position of the first whitespace character, or `|s|` when there is none. */
  function FirstSpace(s: string): (n: nat)
    ensures n <= |s|
    ensures forall k :: 0 <= k < n ==> !IsSpace(s[k])
    ensures n < |s| ==> IsSpace(s[n])
    decreases |s|
  {
    if |s| == 0 || IsSpace(s[0]) then 0 else 1 + FirstSpace(s[1..])
  }

  // ---------------------------------------------------------------------------
  // sep.join(parts)
  // ---------------------------------------------------------------------------

  /** Python's `sep.join(parts)`. */
  function JoinWith(parts: seq<string>, sep: string): string
    decreases |parts|
  {
    if |parts| == 0 then []
    else if |parts| == 1 then parts[0]
    else parts[0] + sep + JoinWith(parts[1..], sep)
  }

  /** With a non-empty separator the join is empty exactly for `[]` and `[""]`. */
  lemma JoinWithEmpty(parts: seq<string>, sep: string)
    requires |sep| > 0
    ensures JoinWith(parts, sep) == [] <==> (parts == [] || parts == [[]])
  {
    if |parts| >= 2 {
      assert |JoinWith(parts, sep)| >= |sep|;
    }
  }

  /** Offset of `parts[i]` inside `JoinWith(parts, sep)`. */
  function JoinOffset(parts: seq<string>, sep: string, i: nat): nat
    requires i <= |parts|
  {
    if i == 0 then 0 else JoinOffset(parts, sep, i - 1) + |parts[i - 1]| + |sep|
  }

  lemma {:induction false} JoinOffsetShift(parts: seq<string>, sep: string, i: nat)
    requires 1 <= i <= |parts|
    ensures JoinOffset(parts, sep, i) == |parts[0]| + |sep| + JoinOffset(parts[1..], sep, i - 1)
    decreases i
  {
    if i > 1 {
      JoinOffsetShift(parts, sep, i - 1);
    }
  }

  /** The join is the first part, then a separator and the join of the rest. */
  lemma JoinWithCons(parts: seq<string>, sep: string)
    requires |parts| >= 2
    ensures JoinWith(parts, sep) == parts[0] + sep + JoinWith(parts[1..], sep)
    ensures JoinWith(parts, sep)[|parts[0]| + |sep| ..] == JoinWith(parts[1..], sep)
  {
    var j := JoinWith(parts, sep);
    assert j[|parts[0]| + |sep| ..] == JoinWith(parts[1..], sep);
  }

  /** Every part sits, unchanged, at its offset in the join. */
  lemma {:induction false} JoinWithPart(parts: seq<string>, sep: string, i: nat)
    requires i < |parts|
    ensures JoinOffset(parts, sep, i) + |parts[i]| <= |JoinWith(parts, sep)|
    ensures JoinWith(parts, sep)[JoinOffset(parts, sep, i) .. JoinOffset(parts, sep, i) + |parts[i]|] == parts[i]
    ensures i + 1 == |parts| ==> JoinOffset(parts, sep, i) + |parts[i]| == |JoinWith(parts, sep)|
    decreases |parts|
  {
    if |parts| > 1 {
      JoinWithCons(parts, sep);
      var head, rest := parts[0] + sep, JoinWith(parts[1..], sep);
      var j := JoinWith(parts, sep);
      assert j == head + rest;
      if i == 0 {
        SliceOfAppend(head, rest, 0, |parts[0]|);
        SliceOfAppend(parts[0], sep, 0, |parts[0]|);
      } else {
        JoinWithPart(parts[1..], sep, i - 1);
        JoinOffsetShift(parts, sep, i);
        var o := JoinOffset(parts[1..], sep, i - 1);
        var n := |parts[1..][i - 1]|;
        assert rest[o .. o + n] == parts[i];
        SliceAfterPrefix(head, rest, o, o + n);
        assert JoinOffset(parts, sep, i) == |head| + o;
      }
    }
  }

  /** A separator follows every part but the last. */
  lemma {:induction false} JoinWithSeparator(parts: seq<string>, sep: string, i: nat)
    requires i + 1 < |parts|
    ensures JoinOffset(parts, sep, i + 1) <= |JoinWith(parts, sep)|
    ensures JoinWith(parts, sep)[JoinOffset(parts, sep, i) + |parts[i]| .. JoinOffset(parts, sep, i + 1)] == sep
    decreases |parts|
  {
    JoinWithCons(parts, sep);
    var head, rest := parts[0] + sep, JoinWith(parts[1..], sep);
    var j := JoinWith(parts, sep);
    assert j == head + rest;
    if i == 0 {
      SliceOfAppend(head, rest, |parts[0]|, |head|);
      SliceAfterPrefix(parts[0], sep, 0, |sep|);
    } else {
      JoinWithSeparator(parts[1..], sep, i - 1);
      JoinOffsetShift(parts, sep, i);
      JoinOffsetShift(parts, sep, i + 1);
      var o := JoinOffset(parts[1..], sep, i - 1) + |parts[1..][i - 1]|;
      var o' := JoinOffset(parts[1..], sep, i);
      assert rest[o .. o'] == sep;
      SliceAfterPrefix(head, rest, o, o');
      assert JoinOffset(parts, sep, i) + |parts[i]| == |head| + o;
      assert JoinOffset(parts, sep, i + 1) == |head| + o';
    }
  }

  /** Each part keeps its place in a join when anything is appended after it. */
  lemma JoinWithThenTail(parts: seq<string>, sep: string, tail: string, t: nat)
    requires t < |parts|
    ensures var o := JoinOffset(parts, sep, t); var m := JoinWith(parts, sep) + tail;
      o + |parts[t]| <= |m| && m[o .. o + |parts[t]|] == parts[t]
  {
    var o := JoinOffset(parts, sep, t);
    JoinWithPart(parts, sep, t);
    SliceOfAppend(JoinWith(parts, sep), tail, o, o + |parts[t]|);
  }

  /** The separator after part `t` survives anything appended after the join. */
  lemma SeparatorAt(parts: seq<string>, sep: string, tail: string, t: nat)
    requires t + 1 < |parts|
    ensures var o := JoinOffset(parts, sep, t) + |parts[t]|; var m := JoinWith(parts, sep) + tail;
      o + |sep| <= |m| && m[o .. o + |sep|] == sep
  {
    var o := JoinOffset(parts, sep, t) + |parts[t]|;
    JoinWithSeparator(parts, sep, t);
    SliceOfAppend(JoinWith(parts, sep), tail, o, o + |sep|);
  }

  /** Joining words with one space and splitting again gives the words back. */
  lemma {:induction false} SplitJoinWords(ws: seq<string>)
    requires AllWords(ws)
    ensures Split(JoinWith(ws, " ")) == ws
    decreases |ws|
  {
    if |ws| == 0 {
    } else if |ws| == 1 {
      SplitFromSpaceFree(ws[0], [], []);
      assert ws[0] + [] == ws[0];
      assert [] + ws[0] == ws[0];
    } else {
      var w := ws[0];
      var rest := JoinWith(ws[1..], " ");
      assert JoinWith(ws, " ") == (w + " ") + rest;
      SplitAppend(w + " ", rest);
      SplitFromSpaceFree(w, " ", []);
      assert [] + w == w;
      assert " "[1..] == [];
      SplitJoinWords(ws[1..]);
      assert ws == [w] + ws[1..];
    }
  }

  /** Words separated by single spaces, nothing else: what `" ".join(words)` produces. */
  predicate SingleSpaced(t: string) {
    && (forall k :: 0 <= k < |t| && IsSpace(t[k]) ==> t[k] == ' ')
    && (forall k :: 0 <= k && k + 1 < |t| ==> !IsSpace(t[k]) || !IsSpace(t[k + 1]))
    && (|t| > 0 ==> !IsSpace(t[0]) && !IsSpace(t[|t| - 1]))
  }

  /** A single-spaced string is the join of its own words. */
  lemma {:induction false} JoinSplitSingleSpaced(t: string)
    requires SingleSpaced(t)
    ensures JoinWith(Split(t), " ") == t
    decreases |t|
  {
    var n := FirstSpace(t);
    if |t| == 0 {
    } else if n == |t| {
      SplitFromSpaceFree(t, [], []);
      assert [] + t == t && t + [] == t;
    } else {
      var w := t[..n];
      var rest := t[n + 1..];
      assert t == w + [t[n]] + rest;
      assert n > 0 && n + 1 < |t|;
      SplitLeadingWord(w, t[n], rest);
      assert SingleSpaced(rest) by {
        forall k | 0 <= k < |rest| && IsSpace(rest[k])
          ensures rest[k] == ' '
        {
          assert rest[k] == t[n + 1 + k];
        }
        forall k | 0 <= k && k + 1 < |rest|
          ensures !IsSpace(rest[k]) || !IsSpace(rest[k + 1])
        {
          assert rest[k] == t[n + 1 + k] && rest[k + 1] == t[n + 2 + k];
        }
        assert rest[0] == t[n + 1];
      }
      JoinSplitSingleSpaced(rest);
      assert Split(rest) != [];
      assert t[n] == ' ';
    }
  }

  // ---------------------------------------------------------------------------
  // str.strip()
  // ---------------------------------------------------------------------------

  /** The first position at or after `i` that does not hold whitespace (`|s|` if none). */
  function SkipSpaces(s: string, i: nat): (r: nat)
    requires i <= |s|
    ensures i <= r <= |s|
    ensures forall k :: i <= k < r ==> IsSpace(s[k])
    ensures r < |s| ==> !IsSpace(s[r])
    decreases |s| - i
  {
    if i < |s| && IsSpace(s[i]) then SkipSpaces(s, i + 1) else i
  }

  /** The end of `s[lo..j]` once trailing whitespace is cut off (`lo` if it is all whitespace). */
  function TrimEnd(s: string, lo: nat, j: nat): (r: nat)
    requires lo <= j <= |s|
    ensures lo <= r <= j
    ensures forall k :: r <= k < j ==> IsSpace(s[k])
    ensures r > lo ==> !IsSpace(s[r - 1])
    decreases j - lo
  {
    if j > lo && IsSpace(s[j - 1]) then TrimEnd(s, lo, j - 1) else j
  }

  /** Where the stripped text starts in `s`. */
  function StripStart(s: string): nat
    ensures StripStart(s) <= |s|
  {
    SkipSpaces(s, 0)
  }

  /** Python's `s.strip()`: the slice of `s` left once whitespace is removed from both ends. */
  function Strip(s: string): (r: string)
    ensures var i := StripStart(s);
      && i + |r| <= |s|
      && r == s[i .. i + |r|]
      && (forall k :: 0 <= k < i ==> IsSpace(s[k]))
      && (forall k :: i + |r| <= k < |s| ==> IsSpace(s[k]))
      && (|r| > 0 ==> !IsSpace(r[0]) && !IsSpace(r[|r| - 1]))
  {
    var a := StripStart(s);
    s[a .. TrimEnd(s, a, |s|)]
  }

  /** Stripping a string that has no whitespace at either end leaves it unchanged. */
  lemma StripUnchanged(s: string)
    requires |s| > 0 ==> !IsSpace(s[0]) && !IsSpace(s[|s| - 1])
    ensures Strip(s) == s
  {
    assert StripStart(s) == 0;
    if |s| > 0 {
      assert TrimEnd(s, 0, |s|) == |s|;
    }
  }

  /** Stripping removes no word. */
  lemma SplitStrip(s: string)
    ensures Split(Strip(s)) == Split(s)
  {
    var r := Strip(s);
    var a := StripStart(s);
    var b := a + |r|;
    var sp := s[..a];
    assert s == sp + (r + s[b..]);
    SplitFromSpacesPrefix(sp, r + s[b..]);
    SplitFromTrailingSpaces(r, s[b..], []);
  }

  lemma {:induction false} SplitFromSpacesPrefix(sp: string, t: string)
    requires forall i :: 0 <= i < |sp| ==> IsSpace(sp[i])
    ensures SplitFrom(sp + t, []) == SplitFrom(t, [])
    decreases |sp|
  {
    if |sp| == 0 {
      assert sp + t == t;
    } else {
      assert (sp + t)[0] == sp[0];
      assert (sp + t)[1..] == sp[1..] + t;
      SplitFromSpacesPrefix(sp[1..], t);
    }
  }

  // ---------------------------------------------------------------------------
  // Slicing and indexing
  // ---------------------------------------------------------------------------

  /** How Python resolves one bound of `s[a:b]` against a sequence of length `n`:
      a negative bound counts from the end, and the result is clamped to `[0, n]`. */
  function SliceBound(i: int, n: nat): nat {
    if i < 0 then (if i + n < 0 then 0 else i + n)
    else if i > n then n
    else i
  }

  /** Python's `s[a:b]`. */
  function PySlice<T>(s: seq<T>, a: int, b: int): seq<T> {
    var lo := SliceBound(a, |s|);
    var hi := SliceBound(b, |s|);
    if lo < hi then s[lo..hi] else []
  }

  /** Python's `s[i]`: a negative index counts from the end, anything else out of range raises. */
  function PyIndex<T>(s: seq<T>, i: int): (r: Option<T>)
    ensures r.Some? <==> -|s| <= i < |s|
    ensures 0 <= i < |s| ==> r == Some(s[i])
    ensures -|s| <= i < 0 ==> r == Some(s[|s| + i])
  {
    if 0 <= i < |s| then Some(s[i])
    else if -|s| <= i < 0 then Some(s[|s| + i])
    else None
  }

  /** Cutting at any position, negative or past the end, splits a sequence into the two
      slices `s[:i]` and `s[i:]`, which together give it back. */
  lemma PySliceConcat<T>(s: seq<T>, i: int)
    ensures PySlice(s, 0, i) + PySlice(s, i, |s|) == s
  {
    var b := SliceBound(i, |s|);
    assert PySlice(s, 0, i) == s[..b];
    assert PySlice(s, i, |s|) == s[b..];
    assert s[..b] + s[b..] == s;
  }

  /** Indexing agrees with slicing: `s[i]` is the one element of `s[i:i+1]`, except that for
      `i == -1` the slice end `0` means the start, so the last element is `s[-1:]`. */
  lemma PyIndexSlice<T>(s: seq<T>, i: int)
    ensures PyIndex(s, i).Some? ==> PySlice(s, i, if i == -1 then |s| else i + 1) == [PyIndex(s, i).value]
    ensures PyIndex(s, i).None? ==> PySlice(s, i, i + 1) == []
  {
  }

  /** Every element has two indices, its position and its position minus the length. */
  lemma PyIndexAliases<T>(s: seq<T>, k: int)
    requires 0 <= k < |s|
    ensures PyIndex(s, k) == PyIndex(s, k - |s|) == Some(s[k])
  {
  }

  // ---------------------------------------------------------------------------
  // Decimal rendering of integers, as in f"{n}"
  // ---------------------------------------------------------------------------

  predicate IsDigit(c: char) {
    '0' <= c <= '9'
  }

  function DigitChar(d: nat): (c: char)
    requires d < 10
    ensures IsDigit(c)
  {
    ['0', '1', '2', '3', '4', '5', '6', '7', '8', '9'][d]
  }

  function DigitValue(c: char): nat
    requires IsDigit(c)
  {
    (c - '0') as nat
  }

  /** `str(n)` for a non-negative integer. */
  function Decimal(n: nat): (r: string)
    ensures |r| > 0
    ensures forall i :: 0 <= i < |r| ==> IsDigit(r[i])
    ensures r[0] == '0' ==> n == 0
    decreases n
  {
    if n < 10 then [DigitChar(n)] else Decimal(n / 10) + [DigitChar(n % 10)]
  }

  /** Reads back a run of decimal digits. */
  function ParseDecimal(s: string): nat
    requires forall i :: 0 <= i < |s| ==> IsDigit(s[i])
    decreases |s|
  {
    if |s| == 0 then 0 else 10 * ParseDecimal(s[..|s| - 1]) + DigitValue(s[|s| - 1])
  }

  lemma {:induction false} ParseDecimalRoundTrip(n: nat)
    ensures ParseDecimal(Decimal(n)) == n
    decreases n
  {
    var r := Decimal(n);
    if n >= 10 {
      ParseDecimalRoundTrip(n / 10);
      assert r[..|r| - 1] == Decimal(n / 10);
    }
  }
}

=== FILE: qa_utils.dfy ===
/** qa_utils.py, `answer_with_groq`: retrieve hits, keep the rank-ordered prefix of their chunks
    that fits the word budget, label the kept chunks as excerpts, build the chat request and
    read the completion out of the response. The similarity search and the chat endpoint are
    outside the model and are passed in as functions. */
module QaUtils {
  import opened Wrappers
  import opened PyStr
  import opened EmbeddingsUtils

  /** The excerpt budget. The source names it `max_total_tokens`, but what it bounds is the
      number of `str.split()` words. */
  const MaxTotalWords: nat := 4000

  const SystemMessage: string :=
    "You are an assistant answering questions about ONE research paper. "
    + "Use only the provided excerpts and cite them like (Excerpt 1)."

  /** `IndexError` from `chunks[idx]` or `res["choices"][0]`; `UpstreamError` is the
      `RuntimeError` raised when the response carries no `choices`; `RequestRaised` is an
      exception of the HTTP call itself, which the source does not catch. */
  datatype QaError = IndexError | UpstreamError(message: string) | RequestRaised

  // ---------------------------------------------------------------------------
  // The excerpt budget
  // ---------------------------------------------------------------------------

  /** `chunks[idx].split()` for the chunk a hit names; `None` when the index is out of range. */
  function HitWords(chunks: seq<string>, h: Hit): (r: Option<seq<string>>)
    ensures r.Some? <==> -|chunks| <= h.id < |chunks|
    ensures r.Some? ==> AllWords(r.value)
  {
    match PyIndex(chunks, h.id)
    case None => None
    case Some(c) => Some(Split(c))
  }

  function WordCount(chunks: seq<string>, h: Hit): nat {
    match HitWords(chunks, h)
    case None => 0
    case Some(ws) => |ws|
  }

  /** Every hit in `hits[i..j]` names an existing chunk. */
  predicate Resolvable(hits: seq<Hit>, chunks: seq<string>, i: nat, j: nat)
    requires i <= j <= |hits|
  {
    forall t :: i <= t < j ==> HitWords(chunks, hits[t]).Some?
  }

  /** The total word count of the chunks named by `hits[i..j]`. */
  function WordsIn(hits: seq<Hit>, chunks: seq<string>, i: nat, j: nat): nat
    requires i <= j <= |hits|
    decreases j - i
  {
    if i == j then 0 else WordCount(chunks, hits[i]) + WordsIn(hits, chunks, i + 1, j)
  }

  /** The loop, started at position `i` with `total` words kept, gets as far as looking up hit `j`:
      every hit before it named a chunk and fitted the budget. */
  predicate Reached(hits: seq<Hit>, chunks: seq<string>, budget: nat, i: nat, total: nat, j: nat)
    requires i <= j <= |hits|
  {
    Resolvable(hits, chunks, i, j) && total + WordsIn(hits, chunks, i, j) <= budget
  }

  /** `f"Excerpt {rank}:\n"`. */
  function ExcerptLabel(rank: nat): string {
    "Excerpt " + Decimal(rank) + ":\n"
  }

  /** `f"Excerpt {rank}:\n" + " ".join(words)`. */
  function Excerpt(rank: nat, words: seq<string>): string {
    ExcerptLabel(rank) + JoinWith(words, " ")
  }

  /** The loop over `enumerate(hits)` from position `i` on, with `total` words already kept:
      a hit naming no chunk raises `IndexError`, the first hit that would take the total past
      the budget ends the loop, and every other hit adds its labelled excerpt. */
  function SelectFrom(hits: seq<Hit>, chunks: seq<string>, budget: nat, i: nat, total: nat)
    : Result<seq<string>, QaError>
    requires i <= |hits|
    decreases |hits| - i
  {
    if i == |hits| then Success([])
    else match HitWords(chunks, hits[i])
      case None => Failure(IndexError)
      case Some(ws) =>
        if total + |ws| > budget then Success([])
        else match SelectFrom(hits, chunks, budget, i + 1, total + |ws|)
          case Failure(e) => Failure(e)
          case Success(rest) => Success([Excerpt(i + 1, ws)] + rest)
  }

  /** The excerpts kept from position `i` on are those of `hits[i..i+m]`, all naming a chunk,
      within budget, and labelled with their 1-based positions. */
  lemma {:induction false} SelectFromKept(hits: seq<Hit>, chunks: seq<string>, budget: nat, i: nat, total: nat)
    requires i <= |hits| && total <= budget
    ensures var r := SelectFrom(hits, chunks, budget, i, total);
      r.Success? ==>
        && i + |r.value| <= |hits|
        && Resolvable(hits, chunks, i, i + |r.value|)
        && total + WordsIn(hits, chunks, i, i + |r.value|) <= budget
        && (forall t :: 0 <= t < |r.value| ==>
              r.value[t] == Excerpt(i + t + 1, HitWords(chunks, hits[i + t]).value))
    decreases |hits| - i
  {
    if i < |hits| && HitWords(chunks, hits[i]).Some? {
      var ws := HitWords(chunks, hits[i]).value;
      if total + |ws| <= budget {
        SelectFromKept(hits, chunks, budget, i + 1, total + |ws|);
        var r := SelectFrom(hits, chunks, budget, i, total);
        if r.Success? {
          var rest := SelectFrom(hits, chunks, budget, i + 1, total + |ws|).value;
          assert r.value == [Excerpt(i + 1, ws)] + rest;
          forall t | 0 <= t < |r.value|
            ensures r.value[t] == Excerpt(i + t + 1, HitWords(chunks, hits[i + t]).value)
          {
            if t > 0 {
              assert r.value[t] == rest[t - 1];
            }
          }
        }
      }
    }
  }

  /** When the loop ends before the last hit, the hit it stopped at names a chunk that would
      take the total past the budget. */
  lemma {:induction false} SelectFromStop(hits: seq<Hit>, chunks: seq<string>, budget: nat, i: nat, total: nat)
    requires i <= |hits| && total <= budget
    ensures var r := SelectFrom(hits, chunks, budget, i, total);
      r.Success? && i + |r.value| < |hits| ==>
        && HitWords(chunks, hits[i + |r.value|]).Some?
        && total + WordsIn(hits, chunks, i, i + |r.value|) + WordCount(chunks, hits[i + |r.value|]) > budget
    decreases |hits| - i
  {
    if i < |hits| && HitWords(chunks, hits[i]).Some? {
      var ws := HitWords(chunks, hits[i]).value;
      if total + |ws| <= budget {
        SelectFromStop(hits, chunks, budget, i + 1, total + |ws|);
        var r := SelectFrom(hits, chunks, budget, i, total);
        if r.Success? {
          var rest := SelectFrom(hits, chunks, budget, i + 1, total + |ws|).value;
          assert |r.value| == 1 + |rest|;
        }
      }
    }
  }

  /** An `IndexError` means the loop reached a hit that names no chunk. */
  lemma {:induction false} SelectFromFailure(hits: seq<Hit>, chunks: seq<string>, budget: nat, i: nat, total: nat)
    requires i <= |hits| && total <= budget
    ensures var r := SelectFrom(hits, chunks, budget, i, total);
      r.Failure? ==>
        && r.error == IndexError
        && exists j :: i <= j < |hits| && Reached(hits, chunks, budget, i, total, j) && HitWords(chunks, hits[j]).None?
    decreases |hits| - i
  {
    var r := SelectFrom(hits, chunks, budget, i, total);
    if i < |hits| && r.Failure? {
      if HitWords(chunks, hits[i]).None? {
        assert Reached(hits, chunks, budget, i, total, i);
      } else {
        var ws := HitWords(chunks, hits[i]).value;
        SelectFromFailure(hits, chunks, budget, i + 1, total + |ws|);
        var j :| i + 1 <= j < |hits| && Reached(hits, chunks, budget, i + 1, total + |ws|, j)
                 && HitWords(chunks, hits[j]).None?;
        assert Reached(hits, chunks, budget, i, total, j);
      }
    }
  }

  /** When every remaining hit names a chunk the loop cannot fail. */
  lemma {:induction false} SelectFromResolvable(hits: seq<Hit>, chunks: seq<string>, budget: nat, i: nat, total: nat)
    requires i <= |hits|
    ensures Resolvable(hits, chunks, i, |hits|) ==> SelectFrom(hits, chunks, budget, i, total).Success?
    decreases |hits| - i
  {
    if i < |hits| && Resolvable(hits, chunks, i, |hits|) {
      var ws := HitWords(chunks, hits[i]).value;
      SelectFromResolvable(hits, chunks, budget, i + 1, total + |ws|);
    }
  }

  /** The excerpts `answer_with_groq` sends: the labelled chunks of the longest prefix of `hits`
      whose total word count fits `budget`. A hit naming no chunk raises `IndexError` if the
      loop reaches it. */
  function SelectExcerpts(hits: seq<Hit>, chunks: seq<string>, budget: nat)
    : (r: Result<seq<string>, QaError>)
    ensures r.Success? ==>
      && |r.value| <= |hits|
      && Resolvable(hits, chunks, 0, |r.value|)
      && WordsIn(hits, chunks, 0, |r.value|) <= budget
      && (forall t :: 0 <= t < |r.value| ==> r.value[t] == Excerpt(t + 1, HitWords(chunks, hits[t]).value))
      && (|r.value| < |hits| ==>
            WordsIn(hits, chunks, 0, |r.value|) + WordCount(chunks, hits[|r.value|]) > budget)
    ensures Resolvable(hits, chunks, 0, |hits|) ==> r.Success?
    ensures r.Failure? ==>
      && r.error == IndexError
      && exists j :: 0 <= j < |hits| && Reached(hits, chunks, budget, 0, 0, j) && HitWords(chunks, hits[j]).None?
  {
    SelectFromKept(hits, chunks, budget, 0, 0);
    SelectFromStop(hits, chunks, budget, 0, 0);
    SelectFromFailure(hits, chunks, budget, 0, 0);
    SelectFromResolvable(hits, chunks, budget, 0, 0);
    SelectFrom(hits, chunks, budget, 0, 0)
  }

  /** When the top hit alone fits the budget, at least one excerpt is sent. */
  lemma TopHitFits(hits: seq<Hit>, chunks: seq<string>, budget: nat)
    requires |hits| > 0 && HitWords(chunks, hits[0]).Some? && WordCount(chunks, hits[0]) <= budget
    ensures SelectExcerpts(hits, chunks, budget).Success? ==> |SelectExcerpts(hits, chunks, budget).value| >= 1
  {
  }

  /** The selection stops at the first hit that does not fit, even when a later, smaller one
      would: once hit `j` overflows, no excerpt of a later hit is ever sent. */
  lemma StopsAtFirstOverflow(hits: seq<Hit>, chunks: seq<string>, budget: nat, j: nat)
    requires j < |hits|
    requires Resolvable(hits, chunks, 0, j + 1)
    requires WordsIn(hits, chunks, 0, j) <= budget < WordsIn(hits, chunks, 0, j + 1)
    ensures SelectExcerpts(hits, chunks, budget).Success?
    ensures |SelectExcerpts(hits, chunks, budget).value| == j
  {
    var r := SelectExcerpts(hits, chunks, budget);
    WordsInSplit(hits, chunks, 0, j);
    if r.Failure? {
      var j' :| 0 <= j' < |hits| && Reached(hits, chunks, budget, 0, 0, j') && HitWords(chunks, hits[j']).None?;
      if j' > j {
        WordsInMonotone(hits, chunks, j + 1, j');
      }
      assert false;
    }
    var m := |r.value|;
    if m < j {
      WordsInMonotone(hits, chunks, m + 1, j);
      WordsInSplit(hits, chunks, 0, m);
      assert false;
    } else if m > j {
      WordsInMonotone(hits, chunks, j + 1, m);
      assert false;
    }
  }

  lemma {:induction false} WordsInSplit(hits: seq<Hit>, chunks: seq<string>, i: nat, j: nat)
    requires i <= j < |hits|
    ensures WordsIn(hits, chunks, i, j + 1) == WordsIn(hits, chunks, i, j) + WordCount(chunks, hits[j])
    decreases j - i
  {
    if i < j {
      WordsInSplit(hits, chunks, i + 1, j);
    }
  }

  lemma {:induction false} WordsInMonotone(hits: seq<Hit>, chunks: seq<string>, j: nat, k: nat)
    requires j <= k <= |hits|
    ensures WordsIn(hits, chunks, 0, j) <= WordsIn(hits, chunks, 0, k)
    decreases k - j
  {
    if j < k {
      WordsInSplit(hits, chunks, 0, k - 1);
      WordsInMonotone(hits, chunks, j, k - 1);
    }
  }

  /** Splitting an excerpt gives its label's two words followed by the chunk's words, and the
      number in the label reads back as the rank. */
  lemma ExcerptWords(rank: nat, ws: seq<string>)
    requires AllWords(ws)
    ensures Split(Excerpt(rank, ws)) == ["Excerpt", Decimal(rank) + ":"] + ws
    ensures ParseDecimal(Decimal(rank)) == rank
  {
    var d := Decimal(rank);
    var j := JoinWith(ws, " ");
    assert Excerpt(rank, ws) == "Excerpt" + [' '] + ((d + ":") + ['\n'] + j);
    PrintableNotSpace("Excerpt");
    PrintableNotSpace(d + ":");
    SplitLeadingWord("Excerpt", ' ', (d + ":") + ['\n'] + j);
    SplitLeadingWord(d + ":", '\n', j);
    SplitJoinWords(ws);
    ParseDecimalRoundTrip(rank);
  }

  // ---------------------------------------------------------------------------
  // The request
  // ---------------------------------------------------------------------------

  /** The blank line between excerpts. */
  const ExcerptSeparator: string := "\n\n"

  const QuestionMarker: string := "\n\nQuestion: "

  /** The user message: the excerpts joined by blank lines, then the question. */
  function BuildUserMessage(excerpts: seq<string>, question: string): string {
    JoinWith(excerpts, ExcerptSeparator) + (QuestionMarker + question)
  }

  /** The user message ends with the marker and the question; with no excerpt it is nothing else. */
  lemma UserMessageQuestion(excerpts: seq<string>, question: string)
    ensures var r := BuildUserMessage(excerpts, question);
      && |r| == |JoinWith(excerpts, ExcerptSeparator)| + |QuestionMarker| + |question|
      && r[|r| - |question| ..] == question
      && r[|r| - |question| - |QuestionMarker| .. |r| - |question|] == QuestionMarker
      && (excerpts == [] ==> r == QuestionMarker + question)
  {
    var j := JoinWith(excerpts, ExcerptSeparator);
    var r := BuildUserMessage(excerpts, question);
    assert r[|r| - |question| ..] == question;
    assert r[|r| - |question| - |QuestionMarker| .. |r| - |question|] == QuestionMarker;
  }

  /** Excerpt `t` stands, unchanged, at its offset in the user message. */
  lemma UserMessageLayout(excerpts: seq<string>, question: string, t: nat)
    requires t < |excerpts|
    ensures var o := JoinOffset(excerpts, ExcerptSeparator, t); var r := BuildUserMessage(excerpts, question);
      && o + |excerpts[t]| <= |r|
      && r[o .. o + |excerpts[t]|] == excerpts[t]
  {
    JoinWithThenTail(excerpts, ExcerptSeparator, QuestionMarker + question, t);
  }

  /** A blank line separates excerpt `t` from the next one in the user message. */
  lemma UserMessageSeparator(excerpts: seq<string>, question: string, t: nat)
    requires t + 1 < |excerpts|
    ensures var o := JoinOffset(excerpts, ExcerptSeparator, t) + |excerpts[t]|;
      var r := BuildUserMessage(excerpts, question);
      && o + |ExcerptSeparator| <= |r|
      && r[o .. o + |ExcerptSeparator|] == ExcerptSeparator
  {
    SeparatorAt(excerpts, ExcerptSeparator, QuestionMarker + question, t);
  }

  /** What is posted to the chat endpoint; model name and temperature are fixed configuration. */
  datatype ChatRequest = ChatRequest(system: string, user: string, maxTokens: int)

  // ---------------------------------------------------------------------------
  // The response
  // ---------------------------------------------------------------------------

  /** One entry of `choices`, reduced to `message.content`. */
  datatype Choice = Choice(content: string)

  /** The `error` object of a failed call; `message` may be absent. */
  datatype ApiError = ApiError(message: Option<string>)

  /** The decoded JSON response: each key present or absent. */
  datatype ChatResponse = ChatResponse(choices: Option<seq<Choice>>, error: Option<ApiError>)

  /** What `requests.post(...).json()` yields: it raises on a connection error, a timeout or a
      body that is not JSON, and otherwise gives the decoded body whatever the HTTP status. */
  datatype ChatOutcome = CallRaised | Replied(response: ChatResponse)

  const DefaultErrorMessage: string := "Groq API error"

  /** `res.get("error", {}).get("message", "Groq API error")`. */
  function ErrorMessage(res: ChatResponse): string {
    match res.error
    case None => DefaultErrorMessage
    case Some(e) => match e.message
      case None => DefaultErrorMessage
      case Some(m) => m
  }

  /** Reads the answer out of the response: the first choice's content with surrounding
      whitespace stripped, or the error the source raises. */
  function InterpretResponse(res: ChatResponse): (r: Result<string, QaError>)
    ensures r.Success? <==> res.choices.Some? && |res.choices.value| > 0
    ensures res.choices.None? ==> r == Failure(UpstreamError(ErrorMessage(res)))
    ensures res.choices == Some([]) ==> r == Failure(IndexError)
    ensures r.Success? ==>
      && |r.value| <= |res.choices.value[0].content|
      && (|r.value| > 0 ==> !IsSpace(r.value[0]) && !IsSpace(r.value[|r.value| - 1]))
      && Split(r.value) == Split(res.choices.value[0].content)
      && r.value == Strip(res.choices.value[0].content)
  {
    match res.choices
    case None => Failure(UpstreamError(ErrorMessage(res)))
    case Some(cs) =>
      if |cs| == 0 then Failure(IndexError)
      else
        SplitStrip(cs[0].content);
        Success(Strip(cs[0].content))
  }

  /** A response without `choices` reports the provider's message when it has one. */
  lemma UpstreamMessage(res: ChatResponse)
    requires res.choices.None?
    ensures res.error.Some? && res.error.value.message.Some? ==>
      InterpretResponse(res) == Failure(UpstreamError(res.error.value.message.value))
    ensures (res.error.None? || res.error.value.message.None?) ==>
      InterpretResponse(res) == Failure(UpstreamError("Groq API error"))
  {
  }

  // ---------------------------------------------------------------------------
  // answer_with_groq
  // ---------------------------------------------------------------------------

  datatype Answer = Answer(text: string, hits: seq<Hit>)

  /** The request built for `question` from the retrieved `hits`. */
  function PrepareRequest(question: string, chunks: seq<string>, hits: seq<Hit>, maxTokens: int)
    : (r: Result<ChatRequest, QaError>)
    ensures r.Success? <==> SelectExcerpts(hits, chunks, MaxTotalWords).Success?
    ensures r.Success? ==>
      && r.value.system == SystemMessage
      && r.value.maxTokens == maxTokens
      && r.value.user == BuildUserMessage(SelectExcerpts(hits, chunks, MaxTotalWords).value, question)
  {
    match SelectExcerpts(hits, chunks, MaxTotalWords)
    case Failure(e) => Failure(e)
    case Success(excerpts) => Success(ChatRequest(SystemMessage, BuildUserMessage(excerpts, question), maxTokens))
  }

  /** The kept hit `t`'s chunk words, labelled with rank `t + 1`, stand unchanged at the
      excerpt's place in the request's user message, after the fixed system instruction. */
  lemma RequestCarriesExcerpt(question: string, chunks: seq<string>, hits: seq<Hit>, maxTokens: int, t: nat)
    requires PrepareRequest(question, chunks, hits, maxTokens).Success?
    requires t < |SelectExcerpts(hits, chunks, MaxTotalWords).value|
    ensures HitWords(chunks, hits[t]).Some?
    ensures var req := PrepareRequest(question, chunks, hits, maxTokens).value;
      var excerpts := SelectExcerpts(hits, chunks, MaxTotalWords).value;
      var e := Excerpt(t + 1, HitWords(chunks, hits[t]).value);
      var o := JoinOffset(excerpts, ExcerptSeparator, t);
      && req.system == SystemMessage
      && req.maxTokens == maxTokens
      && o + |e| <= |req.user|
      && req.user[o .. o + |e|] == e
  {
    MessageCarriesExcerpt(question, chunks, hits, MaxTotalWords, t);
  }

  /** The same, for the user message built from the excerpts kept within any budget. */
  lemma MessageCarriesExcerpt(question: string, chunks: seq<string>, hits: seq<Hit>, budget: nat, t: nat)
    requires SelectExcerpts(hits, chunks, budget).Success?
    requires t < |SelectExcerpts(hits, chunks, budget).value|
    ensures HitWords(chunks, hits[t]).Some?
    ensures var excerpts := SelectExcerpts(hits, chunks, budget).value;
      var user := BuildUserMessage(excerpts, question);
      var e := Excerpt(t + 1, HitWords(chunks, hits[t]).value);
      var o := JoinOffset(excerpts, ExcerptSeparator, t);
      o + |e| <= |user| && user[o .. o + |e|] == e
  {
    var excerpts := SelectExcerpts(hits, chunks, budget).value;
    KeptExcerpt(hits, chunks, budget, t);
    MessageCarries(BuildUserMessage(excerpts, question), excerpts, question, t);
  }

  /** A kept excerpt is the labelled chunk of the hit at its position. */
  lemma KeptExcerpt(hits: seq<Hit>, chunks: seq<string>, budget: nat, t: nat)
    requires SelectExcerpts(hits, chunks, budget).Success?
    requires t < |SelectExcerpts(hits, chunks, budget).value|
    ensures t < |hits| && HitWords(chunks, hits[t]).Some?
    ensures SelectExcerpts(hits, chunks, budget).value[t] == Excerpt(t + 1, HitWords(chunks, hits[t]).value)
  {
    assert HitWords(chunks, hits[t]).Some?;
  }

  lemma MessageCarries(user: string, excerpts: seq<string>, question: string, t: nat)
    requires user == BuildUserMessage(excerpts, question) && t < |excerpts|
    ensures var o := JoinOffset(excerpts, ExcerptSeparator, t);
      o + |excerpts[t]| <= |user| && user[o .. o + |excerpts[t]|] == excerpts[t]
  {
    UserMessageLayout(excerpts, question, t);
  }

  /** The request's user message ends with the question after its marker, and is nothing else
      when no hit was kept; all kept chunks together stay within the word budget. */
  lemma RequestEndsWithQuestion(question: string, chunks: seq<string>, hits: seq<Hit>, maxTokens: int)
    requires PrepareRequest(question, chunks, hits, maxTokens).Success?
    ensures var user := PrepareRequest(question, chunks, hits, maxTokens).value.user;
      var excerpts := SelectExcerpts(hits, chunks, MaxTotalWords).value;
      && |user| >= |QuestionMarker| + |question|
      && user[|user| - |question| ..] == question
      && user[|user| - |question| - |QuestionMarker| .. |user| - |question|] == QuestionMarker
      && (excerpts == [] ==> user == QuestionMarker + question)
      && WordsIn(hits, chunks, 0, |excerpts|) <= MaxTotalWords
  {
    UserMessageQuestion(SelectExcerpts(hits, chunks, MaxTotalWords).value, question);
  }

  /** `answer_with_groq(question, chunks, index, k, max_tokens)`. `search` stands for embedding
      the question and searching the index for `k` neighbours; `complete` for the HTTP call.
      The answer comes with every retrieved hit, not only the ones that fitted the budget. */
  function AnswerWithGroq(question: string, chunks: seq<string>, k: int, maxTokens: int,
                          search: (string, int) -> SearchRow, complete: ChatRequest -> ChatOutcome)
    : (r: Result<Answer, QaError>)
    ensures var hits := TopK(search(question, k));
      var req := PrepareRequest(question, chunks, hits, maxTokens);
      && (r.Success? ==> r.value.hits == hits)
      && (req.Failure? ==> r == Failure(req.error))
      && (req.Success? && complete(req.value).CallRaised? ==> r == Failure(RequestRaised))
      && (req.Success? && complete(req.value).Replied? ==>
            var answer := InterpretResponse(complete(req.value).response);
            && (r.Success? <==> answer.Success?)
            && (r.Success? ==> r.value.text == answer.value)
            && (r.Failure? ==> r.error == answer.error))
      && (Resolvable(hits, chunks, 0, |hits|) ==> req.Success?)
  {
    var hits := TopK(search(question, k));
    match PrepareRequest(question, chunks, hits, maxTokens)
    case Failure(e) => Failure(e)
    case Success(req) =>
      match complete(req)
      case CallRaised => Failure(RequestRaised)
      case Replied(res) =>
        match InterpretResponse(res)
        case Failure(e) => Failure(e)
        case Success(text) => Success(Answer(text, hits))
  }
}

=== FILE: runs.dfy ===
/** The whitespace rewrites the program performs with `re.sub`, written as one
    character-level scan instead of a regular-expression engine:
    `\n{2,}` -> `"\n"`, `[ \t]{2,}` -> `" "` (text_utils.py) and `\s+` -> `" "` (scholar_utils.py). */
module Runs {
  import opened PyStr

  /** No two neighbouring characters of `s` both belong to `cls`. */
  predicate NoAdjacent(s: string, cls: set<char>) {
    forall i :: 0 <= i && i + 1 < |s| ==> s[i] !in cls || s[i + 1] !in cls
  }

  /** Rewrites every maximal run of characters from `cls` in `s` to the single character `c`,
      as `re.sub` does with a greedy pattern for the run. With `keepSingle` the pattern needs
      two or more characters (`X{2,}`), so a run of one is left as it is; otherwise (`X+`) a run
      of one is replaced too. `inRun` says that the character before `s` belonged to a run that
      has already been rewritten. */
  function Collapse(s: string, cls: set<char>, c: char, keepSingle: bool, inRun: bool): (r: string)
    ensures |r| <= |s|
    ensures !inRun && |s| > 0 ==> |r| > 0
    decreases |s|
  {
    if |s| == 0 then []
    else if s[0] !in cls then [s[0]] + Collapse(s[1..], cls, c, keepSingle, false)
    else if inRun then Collapse(s[1..], cls, c, keepSingle, true)
    else (if keepSingle && (|s| == 1 || s[1] !in cls) then [s[0]] else [c])
         + Collapse(s[1..], cls, c, keepSingle, true)
  }

  /** What the rewrite does at a maximal run: the run becomes the single character `c` in
      its place, except that with `keepSingle` a run of one character is left as it is; the
      text after the run is then rewritten on its own. */
  lemma CollapseRun(run: string, rest: string, cls: set<char>, c: char, keepSingle: bool)
    requires |run| > 0 && forall k :: 0 <= k < |run| ==> run[k] in cls
    requires |rest| > 0 ==> rest[0] !in cls
    ensures Collapse(run + rest, cls, c, keepSingle, false) ==
      (if keepSingle && |run| == 1 then run else [c]) + Collapse(rest, cls, c, keepSingle, false)
  {
    var s := run + rest;
    assert s[0] == run[0];
    assert s[1..] == run[1..] + rest;
    assert |run| >= 2 ==> s[1] == run[1];
    CollapseInRun(run[1..], rest, cls, c, keepSingle);
  }

  /** Inside a run that has already been rewritten the rest of the run is dropped, and the
      scan resumes outside the run. */
  lemma {:induction false} CollapseInRun(run: string, rest: string, cls: set<char>, c: char, keepSingle: bool)
    requires forall k :: 0 <= k < |run| ==> run[k] in cls
    requires |rest| > 0 ==> rest[0] !in cls
    ensures Collapse(run + rest, cls, c, keepSingle, true) == Collapse(rest, cls, c, keepSingle, false)
    decreases |run|
  {
    if |run| == 0 {
      assert run + rest == rest;
    } else {
      var s := run + rest;
      assert s[0] == run[0];
      assert s[1..] == run[1..] + rest;
      CollapseInRun(run[1..], rest, cls, c, keepSingle);
    }
  }

  /** A character outside the class is copied, and ends any run before it. */
  lemma CollapseOther(x: char, rest: string, cls: set<char>, c: char, keepSingle: bool, inRun: bool)
    requires x !in cls
    ensures Collapse([x] + rest, cls, c, keepSingle, inRun) == [x] + Collapse(rest, cls, c, keepSingle, false)
  {
    assert ([x] + rest)[1..] == rest;
  }

  lemma NoAdjacentCons(x: char, t: string, cls: set<char>)
    requires NoAdjacent(t, cls)
    requires |t| > 0 && x in cls ==> t[0] !in cls
    ensures NoAdjacent([x] + t, cls)
  {
    var s := [x] + t;
    forall i | 0 <= i && i + 1 < |s|
      ensures s[i] !in cls || s[i + 1] !in cls
    {
      if i > 0 {
        assert s[i] == t[i - 1] && s[i + 1] == t[i];
      }
    }
  }

  /** After the rewrite no two characters of the class are neighbours. The output of a scan
      that starts inside a run begins outside the class. */
  lemma {:induction false} CollapseNoAdjacent(s: string, cls: set<char>, c: char, keepSingle: bool, inRun: bool)
    requires c in cls
    ensures NoAdjacent(Collapse(s, cls, c, keepSingle, inRun), cls)
    ensures inRun && |Collapse(s, cls, c, keepSingle, inRun)| > 0 ==>
      Collapse(s, cls, c, keepSingle, inRun)[0] !in cls
    decreases |s|
  {
    if |s| > 0 {
      CollapseNoAdjacent(s[1..], cls, c, keepSingle, s[0] in cls);
      var rest := Collapse(s[1..], cls, c, keepSingle, s[0] in cls);
      if s[0] !in cls {
        NoAdjacentCons(s[0], rest, cls);
      } else if !inRun {
        var d := if keepSingle && (|s| == 1 || s[1] !in cls) then s[0] else c;
        NoAdjacentCons(d, rest, cls);
      }
    }
  }

  /** A class whose characters are never neighbours in `s`, and which the rewrite neither
      touches nor produces, is still never neighbouring afterwards. When the scan does not
      start inside a run, the output begins with a character of that class only if `s` does. */
  lemma {:induction false} CollapseKeepsNoAdjacent(s: string, cls: set<char>, c: char, keepSingle: bool,
                                                   inRun: bool, other: set<char>)
    requires cls !! other && c !in other
    requires NoAdjacent(s, other)
    ensures NoAdjacent(Collapse(s, cls, c, keepSingle, inRun), other)
    ensures !inRun && |Collapse(s, cls, c, keepSingle, inRun)| > 0 && Collapse(s, cls, c, keepSingle, inRun)[0] in other ==>
      |s| > 0 && s[0] in other
    decreases |s|
  {
    if |s| > 0 {
      assert NoAdjacent(s[1..], other) by {
        forall i | 0 <= i && i + 1 < |s[1..]|
          ensures s[1..][i] !in other || s[1..][i + 1] !in other
        {
          assert s[1..][i] == s[i + 1] && s[1..][i + 1] == s[i + 2];
        }
      }
      CollapseKeepsNoAdjacent(s[1..], cls, c, keepSingle, s[0] in cls, other);
      var rest := Collapse(s[1..], cls, c, keepSingle, s[0] in cls);
      if s[0] !in cls {
        NoAdjacentCons(s[0], rest, other);
      } else if !inRun {
        var d := if keepSingle && (|s| == 1 || s[1] !in cls) then s[0] else c;
        NoAdjacentCons(d, rest, other);
      }
    }
  }

  /** A string without neighbouring class characters is left unchanged by the `X{2,}` rewrite. */
  lemma {:induction false} CollapseUnchanged(s: string, cls: set<char>, c: char, inRun: bool)
    requires NoAdjacent(s, cls)
    requires inRun && |s| > 0 ==> s[0] !in cls
    ensures Collapse(s, cls, c, true, inRun) == s
    decreases |s|
  {
    if |s| > 0 {
      assert NoAdjacent(s[1..], cls) by {
        forall i | 0 <= i && i + 1 < |s[1..]|
          ensures s[1..][i] !in cls || s[1..][i + 1] !in cls
        {
          assert s[1..][i] == s[i + 1] && s[1..][i + 1] == s[i + 2];
        }
      }
      CollapseUnchanged(s[1..], cls, c, s[0] in cls);
      assert s == [s[0]] + s[1..];
    }
  }

  /** The `X{2,}` rewrite of a whole string is the identity on strings without neighbouring
      class characters. */
  lemma CollapseUnchangedWhole(s: string, cls: set<char>, c: char)
    ensures NoAdjacent(s, cls) ==> Collapse(s, cls, c, true, false) == s
  {
    if NoAdjacent(s, cls) {
      CollapseUnchanged(s, cls, c, false);
    }
  }

  /** Every character of the output is the replacement or a character of `s`; with a
      replaced single run (`X+`) no class character other than the replacement survives. */
  lemma {:induction false} CollapseChars(s: string, cls: set<char>, c: char, keepSingle: bool, inRun: bool)
    ensures forall x :: x in Collapse(s, cls, c, keepSingle, inRun) ==> x == c || x in s
    ensures !keepSingle ==>
      forall x :: x in Collapse(s, cls, c, keepSingle, inRun) ==> x == c || (x in s && x !in cls)
    decreases |s|
  {
    if |s| > 0 {
      CollapseChars(s[1..], cls, c, keepSingle, s[0] in cls);
      assert forall x :: x in s[1..] ==> x in s;
    }
  }

  /** Rewriting whitespace runs to a whitespace character changes no word of `str.split()`. */
  lemma {:induction false} CollapseSplitFrom(s: string, cls: set<char>, c: char, keepSingle: bool, inRun: bool, cur: string)
    requires cls <= Whitespace && IsSpace(c)
    requires inRun ==> cur == []
    ensures SplitFrom(Collapse(s, cls, c, keepSingle, inRun), cur) == SplitFrom(s, cur)
    decreases |s|
  {
    if |s| > 0 {
      var out := Collapse(s, cls, c, keepSingle, inRun);
      if s[0] !in cls {
        var rest := Collapse(s[1..], cls, c, keepSingle, false);
        assert out == [s[0]] + rest;
        assert out[0] == s[0] && out[1..] == rest;
        if IsSpace(s[0]) {
          CollapseSplitFrom(s[1..], cls, c, keepSingle, false, []);
        } else {
          CollapseSplitFrom(s[1..], cls, c, keepSingle, false, cur + [s[0]]);
        }
      } else if inRun {
        CollapseSplitFrom(s[1..], cls, c, keepSingle, true, []);
        assert Flush(cur) == [];
      } else {
        var rest := Collapse(s[1..], cls, c, keepSingle, true);
        var d := if keepSingle && (|s| == 1 || s[1] !in cls) then s[0] else c;
        assert out == [d] + rest;
        assert out[0] == d && out[1..] == rest;
        CollapseSplitFrom(s[1..], cls, c, keepSingle, true, []);
      }
    }
  }

  lemma CollapseSplit(s: string, cls: set<char>, c: char, keepSingle: bool)
    requires cls <= Whitespace && IsSpace(c)
    ensures Split(Collapse(s, cls, c, keepSingle, false)) == Split(s)
  {
    CollapseSplitFrom(s, cls, c, keepSingle, false, []);
  }

  /** Any slice of a string without neighbouring class characters has none either. */
  lemma NoAdjacentSlice(s: string, cls: set<char>, i: nat, j: nat)
    requires NoAdjacent(s, cls) && i <= j <= |s|
    ensures NoAdjacent(s[i..j], cls)
  {
    var t := s[i..j];
    forall k | 0 <= k && k + 1 < |t|
      ensures t[k] !in cls || t[k + 1] !in cls
    {
      assert t[k] == s[i + k] && t[k + 1] == s[i + k + 1];
    }
  }
}

=== FILE: scholar_utils.dfy ===
/** scholar_utils.py: the related-paper lookup. A free-text topic is cleaned into a search
    query; a query that is too short is never sent; the search service's records are mapped
    onto display records with defaults. The HTTP call is outside the model: its outcome is
    given by a function from the request to a `FetchOutcome`. */
module ScholarUtils {
  import opened Wrappers
  import opened PyStr
  import opened Runs

  const MaxQueryLength := 200
  const MinQueryLength := 4
  const SearchFields: string := "title,authors,year,url"

  const UnknownAuthors: string := "Unknown"
  const Untitled: string := "Untitled"
  const NoUrl: string := "#"

  // ---------------------------------------------------------------------------
  // _clean_query
  // ---------------------------------------------------------------------------

  predicate IsAsciiAlnum(c: char) {
    'A' <= c <= 'Z' || 'a' <= c <= 'z' || '0' <= c <= '9'
  }

  /** Characters the first substitution keeps: `[A-Za-z0-9\s]`. */
  predicate Kept(c: char) {
    IsAsciiAlnum(c) || IsSpace(c)
  }

  /** `re.sub(r"[^A-Za-z0-9\s]", " ", text)`: every other character becomes a space. */
  function MaskPunctuation(text: string): (r: string)
    ensures |r| == |text|
    ensures forall i :: 0 <= i < |r| ==> Kept(r[i])
    ensures forall i :: 0 <= i < |r| && Kept(text[i]) ==> r[i] == text[i]
    ensures forall i :: 0 <= i < |r| && !Kept(text[i]) ==> r[i] == ' '
  {
    seq(|text|, i requires 0 <= i < |text| => if Kept(text[i]) then text[i] else ' ')
  }

  /** `re.sub(r"\s+", " ", text)`: no two whitespace characters remain side by side, the
      space is the only one left, and no word changes. */
  function SquashSpaces(text: string): (r: string)
    ensures NoAdjacent(r, Whitespace)
    ensures forall i :: 0 <= i < |r| && IsSpace(r[i]) ==> r[i] == ' '
    ensures Split(r) == Split(text)
  {
    CollapseNoAdjacent(text, Whitespace, ' ', false, false);
    CollapseChars(text, Whitespace, ' ', false, false);
    CollapseSplit(text, Whitespace, ' ', false);
    var r := Collapse(text, Whitespace, ' ', false, false);
    assert forall i :: 0 <= i < |r| ==> r[i] in r;
    r
  }

  /** `_clean_query(text, max_len)`: mask, squash whitespace runs, strip, then `[:max_len]`. */
  function CleanQuery(text: string, maxLen: int): (r: string)
    ensures forall i :: 0 <= i < |r| ==> IsAsciiAlnum(r[i]) || r[i] == ' '
    ensures |r| > 0 ==> r[0] != ' '
    ensures NoAdjacent(r, {' '})
    ensures maxLen >= 0 ==> |r| <= maxLen
  {
    var m := MaskPunctuation(text);
    var q := SquashSpaces(m);
    var s := Strip(q);
    CleanQueryShape(m, q, s);
    var r := PySlice(s, 0, maxLen);
    SliceShape(s, SliceBound(maxLen, |s|));
    r
  }

  /** The shape of the stripped, squashed text: only letters, digits and single spaces between them. */
  predicate QueryShape(s: string) {
    && (forall i :: 0 <= i < |s| ==> IsAsciiAlnum(s[i]) || s[i] == ' ')
    && (|s| > 0 ==> s[0] != ' ')
    && NoAdjacent(s, {' '})
  }

  /** Letters, digits and spaces only, with no two whitespace characters side by side. */
  predicate Squashed(q: string) {
    && (forall i :: 0 <= i < |q| ==> IsAsciiAlnum(q[i]) || q[i] == ' ')
    && NoAdjacent(q, Whitespace)
  }

  /** Masked text squashed by `\s+` -> `" "` keeps only letters, digits and single spaces. */
  lemma SquashMasked(m: string)
    requires forall i :: 0 <= i < |m| ==> Kept(m[i])
    ensures Squashed(SquashSpaces(m))
  {
    var q := SquashSpaces(m);
    CollapseChars(m, Whitespace, ' ', false, false);
    CollapseNoAdjacent(m, Whitespace, ' ', false, false);
    forall i | 0 <= i < |q|
      ensures IsAsciiAlnum(q[i]) || q[i] == ' '
    {
      assert q[i] in q;
      if q[i] != ' ' {
        var k :| 0 <= k < |m| && m[k] == q[i];
      }
    }
  }

  lemma SquashedSlice(q: string, lo: nat, hi: nat)
    requires Squashed(q) && lo <= hi <= |q|
    ensures Squashed(q[lo..hi])
  {
    NoAdjacentSlice(q, Whitespace, lo, hi);
  }

  lemma AlnumNotSpace(c: char)
    requires IsAsciiAlnum(c)
    ensures !IsSpace(c)
  {
  }

  /** A squashed string without whitespace at either end is query-shaped and single-spaced. */
  lemma SquashedTrimmed(s: string)
    requires Squashed(s)
    requires |s| > 0 ==> !IsSpace(s[0]) && !IsSpace(s[|s| - 1])
    ensures QueryShape(s) && SingleSpaced(s)
  {
    forall k | 0 <= k < |s| && IsSpace(s[k])
      ensures s[k] == ' '
    {
      if s[k] != ' ' {
        AlnumNotSpace(s[k]);
      }
    }
    forall k | 0 <= k && k + 1 < |s|
      ensures s[k] !in {' '} || s[k + 1] !in {' '}
    {
      assert s[k] !in Whitespace || s[k + 1] !in Whitespace;
    }
  }

  lemma CleanQueryShape(m: string, q: string, s: string)
    requires forall i :: 0 <= i < |m| ==> Kept(m[i])
    requires q == SquashSpaces(m) && s == Strip(q)
    ensures QueryShape(s)
    ensures SingleSpaced(s)
  {
    SquashMasked(m);
    var lo := StripStart(q);
    SquashedSlice(q, lo, lo + |s|);
    SquashedTrimmed(s);
  }

  /** A prefix of a query-shaped string is query-shaped. */
  lemma SliceShape(s: string, hi: nat)
    requires QueryShape(s) && hi <= |s|
    ensures QueryShape(s[..hi])
    ensures PySlice(s, 0, hi) == s[..hi]
  {
    NoAdjacentSlice(s, {' '}, 0, hi);
  }

  /** Before truncation the cleaned query is the masked text's words joined by single spaces:
      `_clean_query(text, n)` is `" ".join(masked.split())[:n]`. */
  lemma CleanQueryIsJoinedWords(text: string, maxLen: int)
    ensures CleanQuery(text, maxLen) == PySlice(JoinWith(Split(MaskPunctuation(text)), " "), 0, maxLen)
  {
    var m := MaskPunctuation(text);
    var q := SquashSpaces(m);
    var s := Strip(q);
    CleanQueryShape(m, q, s);
    JoinSplitSingleSpaced(s);
    SplitStrip(q);
    CollapseSplit(m, Whitespace, ' ', false);
  }

  /** Truncation comes after stripping, so a cut can end on a space, and cleaning the result
      again removes it: `_clean_query` is not idempotent. */
  lemma TruncationKeepsTrailingSpace()
    ensures CleanQuery("ab cd", 3) == "ab "
    ensures CleanQuery(CleanQuery("ab cd", 3), 3) == "ab"
  {
    CleanTwoWords();
    CleanTrailingSpace();
  }

  lemma CleanTwoWords()
    ensures CleanQuery("ab cd", 3) == "ab "
  {
    var t := "ab cd";
    CleanQueryIsJoinedWords(t, 3);
    MaskTwoWords();
    TwoWords();
    var j := JoinWith(Split(MaskPunctuation(t)), " ");
    assert j == t;
    assert PySlice(j, 0, 3) == t[..3];
  }

  lemma MaskTwoWords()
    ensures MaskPunctuation("ab cd") == "ab cd"
  {
  }

  lemma TwoWords()
    ensures JoinWith(Split("ab cd"), " ") == "ab cd"
  {
    var t := "ab cd";
    PrintableNotSpace("ab");
    PrintableNotSpace("cd");
    assert t == "ab" + [' '] + "cd";
    SplitLeadingWord("ab", ' ', "cd");
    SplitFromSpaceFree("cd", [], []);
    assert [] + "cd" == "cd" && "cd" + [] == "cd";
    assert JoinWith(["ab", "cd"], " ") == t;
  }

  lemma CleanTrailingSpace()
    ensures CleanQuery("ab ", 3) == "ab"
  {
    var u := "ab ";
    assert MaskPunctuation(u) == u;
    assert Split(u) == ["ab"] by {
      PrintableNotSpace("ab");
      assert u == "ab" + [' '] + [];
      SplitLeadingWord("ab", ' ', []);
    }
    CleanQueryIsJoinedWords(u, 3);
  }

  // ---------------------------------------------------------------------------
  // find_related_papers
  // ---------------------------------------------------------------------------

  /** One record of the search response's `data` list; `None` is a missing key. Each author is
      given by its `name`. */
  datatype PaperRecord = PaperRecord(
    title: Option<string>, authors: Option<seq<string>>, year: Option<int>, url: Option<string>)

  /** The decoded JSON body; `data` may be missing. */
  datatype SearchBody = SearchBody(data: Option<seq<PaperRecord>>)

  /** What the HTTP request yields: a transport error, a bad status or an undecodable body
      (all caught by the source) or a decoded body. */
  datatype FetchOutcome = FetchFailed | Fetched(body: SearchBody)

  /** The query parameters of the request. */
  datatype SearchParams = SearchParams(query: string, limit: int, fields: string)

  /** The `year` shown: the record's year, or `"n.d."` when the record has none. */
  datatype PaperYear = Year(value: int) | NoDate

  datatype RelatedPaper = RelatedPaper(title: string, authors: string, year: PaperYear, url: string)

  /** `", ".join(names) or "Unknown"` over `p.get("authors", [])`. */
  function AuthorLine(authors: Option<seq<string>>): (r: string)
    ensures authors.None? ==> r == UnknownAuthors
    ensures authors.Some? && (authors.value == [] || authors.value == [[]]) ==> r == UnknownAuthors
    ensures authors.Some? && authors.value != [] && authors.value != [[]] ==> r == JoinWith(authors.value, ", ")
  {
    var names := match authors case None => [] case Some(ns) => ns;
    var joined := JoinWith(names, ", ");
    JoinWithEmpty(names, ", ");
    if joined == [] then UnknownAuthors else joined
  }

  /** The dictionary built for one record: defaults stand in only for missing keys, except
      for the authors, which also fall back when their joined names are empty. */
  function ToRelatedPaper(p: PaperRecord): (r: RelatedPaper)
    ensures r.title == if p.title.Some? then p.title.value else Untitled
    ensures r.authors == AuthorLine(p.authors)
    ensures r.year == if p.year.Some? then Year(p.year.value) else NoDate
    ensures r.url == if p.url.Some? then p.url.value else NoUrl
  {
    RelatedPaper(
      match p.title case None => Untitled case Some(t) => t,
      AuthorLine(p.authors),
      match p.year case None => NoDate case Some(y) => Year(y),
      match p.url case None => NoUrl case Some(u) => u)
  }

  /** The request `find_related_papers` makes, or `None` when the cleaned query is too short
      to search for. */
  function SearchRequest(rawQuery: string, limit: int): (r: Option<SearchParams>)
    ensures r.None? <==> |CleanQuery(rawQuery, MaxQueryLength)| < MinQueryLength
    ensures r.Some? ==>
      && r.value.query == CleanQuery(rawQuery, MaxQueryLength)
      && MinQueryLength <= |r.value.query| <= MaxQueryLength
      && r.value.limit == limit
      && r.value.fields == SearchFields
  {
    var query := CleanQuery(rawQuery, MaxQueryLength);
    if |query| < MinQueryLength then None else Some(SearchParams(query, limit, SearchFields))
  }

  /** `data.get("data", [])`, with every failed fetch read as no records. */
  function Records(outcome: FetchOutcome): (r: seq<PaperRecord>)
    ensures outcome.FetchFailed? ==> r == []
    ensures outcome.Fetched? && outcome.body.data.None? ==> r == []
    ensures outcome.Fetched? && outcome.body.data.Some? ==> r == outcome.body.data.value
  {
    match outcome
    case FetchFailed => []
    case Fetched(body) => match body.data case None => [] case Some(ps) => ps
  }

  /** Maps every record, keeping their order. */
  function ToRelatedPapers(ps: seq<PaperRecord>): (r: seq<RelatedPaper>)
    ensures |r| == |ps|
    ensures forall i :: 0 <= i < |ps| ==> r[i] == ToRelatedPaper(ps[i])
    decreases |ps|
  {
    if |ps| == 0 then [] else [ToRelatedPaper(ps[0])] + ToRelatedPapers(ps[1..])
  }

  /** `find_related_papers(raw_query, limit)`. It never fails: a short query, a failed fetch
      and a body without `data` all give no papers. */
  function FindRelatedPapers(rawQuery: string, limit: int, fetch: SearchParams -> FetchOutcome)
    : (r: seq<RelatedPaper>)
    ensures SearchRequest(rawQuery, limit).None? ==> r == []
    ensures SearchRequest(rawQuery, limit).Some? ==>
      var outcome := fetch(SearchRequest(rawQuery, limit).value);
      && (outcome.FetchFailed? ==> r == [])
      && (outcome.Fetched? && outcome.body.data.None? ==> r == [])
      && (outcome.Fetched? && outcome.body.data.Some? ==>
            var ps := outcome.body.data.value;
            |r| == |ps| && forall i :: 0 <= i < |ps| ==> r[i] == ToRelatedPaper(ps[i]))
  {
    match SearchRequest(rawQuery, limit)
    case None => []
    case Some(params) => ToRelatedPapers(Records(fetch(params)))
  }

  /** A default stands in a displayed field only when the record lacks the key, or when the
      record's own value happens to equal the default; the year and url defaults cannot be
      mistaken for a record's value, and the author line is never empty. */
  lemma DefaultsOnlyWhenMissing(p: PaperRecord)
    ensures var r := ToRelatedPaper(p);
      && (r.title == Untitled <==> p.title.None? || p.title.value == Untitled)
      && (r.year == NoDate <==> p.year.None?)
      && (r.url == NoUrl <==> p.url.None? || p.url.value == NoUrl)
      && r.authors != []
      && (r.authors == UnknownAuthors <==>
            p.authors.None? || p.authors.value == [] || p.authors.value == [[]]
            || JoinWith(p.authors.value, ", ") == UnknownAuthors)
  {
  }

  /** A two-letter topic cleans to two characters, so no search is made and no paper is
      returned, whatever the search service would have answered. */
  lemma ShortTopicSkipsSearch(limit: int, fetch: SearchParams -> FetchOutcome)
    ensures CleanQuery("ab", MaxQueryLength) == "ab"
    ensures SearchRequest("ab", limit).None?
    ensures FindRelatedPapers("ab", limit, fetch) == []
  {
    assert MaskPunctuation("ab") == "ab";
    PrintableNotSpace("ab");
    SplitFromSpaceFree("ab", [], []);
    assert [] + "ab" == "ab" && "ab" + [] == "ab";
    CleanQueryIsJoinedWords("ab", MaxQueryLength);
  }
}

=== FILE: text_utils.dfy ===
/** text_utils.py: the normaliser that tidies extracted PDF text, and the chunker that
    cuts it into overlapping windows of words. */
module TextUtils {
  import opened Wrappers
  import opened PyStr
  import opened Runs

  // ---------------------------------------------------------------------------
  // clean_text
  // ---------------------------------------------------------------------------

  const Newlines: set<char> := {'\n'}

  /** The class `[ \t]`: the only horizontal whitespace the normaliser collapses. */
  const Blanks: set<char> := {' ', '\t'}

  /** `re.sub(r"\n{2,}", "\n", text)`: no blank lines remain, no word changes, and text
      without them is left as it is. */
  function CollapseNewlines(text: string): (r: string)
    ensures NoAdjacent(r, Newlines)
    ensures Split(r) == Split(text)
    ensures NoAdjacent(text, Newlines) ==> r == text
  {
    CollapseNoAdjacent(text, Newlines, '\n', true, false);
    CollapseSplit(text, Newlines, '\n', true);
    CollapseUnchangedWhole(text, Newlines, '\n');
    Collapse(text, Newlines, '\n', true, false)
  }

  /** `re.sub(r"[ \t]{2,}", " ", text)`: no two blanks remain side by side, no two newlines
      are brought together, no word changes, and text without blank runs is left as it is. */
  function CollapseBlanks(text: string): (r: string)
    ensures NoAdjacent(r, Blanks)
    ensures NoAdjacent(text, Newlines) ==> NoAdjacent(r, Newlines)
    ensures Split(r) == Split(text)
    ensures NoAdjacent(text, Blanks) ==> r == text
  {
    CollapseNoAdjacent(text, Blanks, ' ', true, false);
    BlanksKeepNewlines(text);
    CollapseSplit(text, Blanks, ' ', true);
    CollapseUnchangedWhole(text, Blanks, ' ');
    Collapse(text, Blanks, ' ', true, false)
  }

  lemma BlanksKeepNewlines(text: string)
    ensures NoAdjacent(text, Newlines) ==> NoAdjacent(Collapse(text, Blanks, ' ', true, false), Newlines)
  {
    if NoAdjacent(text, Newlines) {
      CollapseKeepsNoAdjacent(text, Blanks, ' ', true, false, Newlines);
    }
  }

  /** `clean_text`: collapse newline runs, then blank runs, then strip both ends. Text without
      such runs is only stripped, so single newlines and tabs stay where they are. */
  function CleanText(text: string): (r: string)
    ensures NoAdjacent(r, Newlines)
    ensures NoAdjacent(r, Blanks)
    ensures |r| > 0 ==> !IsSpace(r[0]) && !IsSpace(r[|r| - 1])
    ensures Split(r) == Split(text)
    ensures NoAdjacent(text, Newlines) && NoAdjacent(text, Blanks) ==> r == Strip(text)
  {
    var b := CollapseBlanks(CollapseNewlines(text));
    StripNoAdjacent(b, Newlines);
    StripNoAdjacent(b, Blanks);
    SplitStrip(b);
    Strip(b)
  }

  /** Stripping cannot make two class characters neighbours. */
  lemma StripNoAdjacent(b: string, cls: set<char>)
    requires NoAdjacent(b, cls)
    ensures NoAdjacent(Strip(b), cls)
  {
    var i := StripStart(b);
    NoAdjacentSlice(b, cls, i, i + |Strip(b)|);
  }

  /** Cleaning cleaned text changes nothing. */
  lemma CleanTextIdempotent(text: string)
    ensures CleanText(CleanText(text)) == CleanText(text)
  {
    StripUnchanged(CleanText(text));
  }

  // ---------------------------------------------------------------------------
  // chunk_text
  // ---------------------------------------------------------------------------

  /** The `ValueError` raised when `chunk_size <= overlap`. */
  datatype ChunkError = InvalidConfiguration

  function Min(a: int, b: int): int {
    if a <= b then a else b
  }

  /** Where chunk `i` starts: the loop adds `size - overlap` to `start` once per chunk. */
  function StartOf(i: nat, step: int): (r: int)
    ensures step >= 1 ==> r >= i
    decreases i
  {
    if i == 0 then 0 else StartOf(i - 1, step) + step
  }

  /** The words of chunk `i`: `words[start:end]` with `start` as above and
      `end = min(start + size, len(words))`, sliced as Python slices. */
  function Window(words: seq<string>, size: int, overlap: int, i: nat): (w: seq<string>)
    requires size > overlap
    ensures size >= 0 ==> |w| <= size
    ensures size >= 1 && StartOf(i, size - overlap) < |words| ==> |w| >= 1
  {
    WindowAt(words, size, StartOf(i, size - overlap))
  }

  /** The words of the chunk starting at `start`: `words[start:min(start + size, len(words))]`. */
  function WindowAt(words: seq<string>, size: int, start: int): seq<string> {
    PySlice(words, start, Min(start + size, |words|))
  }

  /** The number of loop iterations: the number of starts below `n`. */
  function ChunkCount(n: nat, step: int): (m: nat)
    requires step >= 1
    ensures m <= n
    ensures n > 0 ==> m >= 1
    decreases n
  {
    if n == 0 then 0 else if n <= step then 1 else 1 + ChunkCount(n - step, step)
  }

  /** Every chunk's words, in order. */
  function Windows(words: seq<string>, size: int, overlap: int): (ws: seq<seq<string>>)
    requires size > overlap
  {
    seq(ChunkCount(|words|, size - overlap), i requires 0 <= i => Window(words, size, overlap, i))
  }

  /** `chunk_text(text, chunk_size, overlap)`: the same loop as the source, a window start
      advancing by `chunk_size - overlap` while it is below the number of words. */
  method ChunkText(text: string, chunkSize: int, overlap: int) returns (r: Result<seq<string>, ChunkError>)
    ensures r.Failure? <==> chunkSize <= overlap
    ensures r.Success? ==> |r.value| == ChunkCount(|Split(text)|, chunkSize - overlap)
    ensures r.Success? ==>
      forall i :: 0 <= i < |r.value| ==> r.value[i] == JoinWith(Window(Split(text), chunkSize, overlap, i), " ")
    ensures r.Success? ==>
      forall i :: 0 <= i < |r.value| ==> Split(r.value[i]) == Window(Split(text), chunkSize, overlap, i)
    ensures r.Success? && Split(text) == [] ==> r.value == []
  {
    if chunkSize <= overlap {
      return Failure(InvalidConfiguration);
    }
    var words := Split(text);
    var step := chunkSize - overlap;
    var chunks: seq<string> := [];
    var start := 0;
    while start < |words|
      invariant start == StartOf(|chunks|, step)
      invariant |chunks| == 0 || StartOf(|chunks| - 1, step) < |words|
      invariant forall i :: 0 <= i < |chunks| ==> chunks[i] == JoinWith(Window(words, chunkSize, overlap, i), " ")
      decreases |words| - start
    {
      var end := Min(start + chunkSize, |words|);
      chunks := chunks + [JoinWith(PySlice(words, start, end), " ")];
      start := start + step;
    }
    StartsBelow(|words|, step, |chunks|);
    if |chunks| > 0 {
      StartsBelow(|words|, step, |chunks| - 1);
    }
    forall i | 0 <= i < |chunks|
      ensures Split(chunks[i]) == Window(words, chunkSize, overlap, i)
    {
      ChunkRoundTrip(text, chunkSize, overlap, i);
    }
    return Success(chunks);
  }

  /** Chunk `i` exists exactly when its start is below the number of words; there is no
      chunk exactly when there are no words. */
  lemma {:induction false} StartsBelow(n: nat, step: int, i: nat)
    requires step >= 1
    ensures i < ChunkCount(n, step) <==> StartOf(i, step) < n
    ensures ChunkCount(n, step) == 0 <==> n == 0
    decreases n
  {
    if n > step && i > 0 {
      StartsBelow(n - step, step, i - 1);
    } else if i > 0 {
      assert StartOf(i, step) == StartOf(i - 1, step) + step;
    }
  }

  lemma MulSucc(i: int, step: int)
    ensures (i + 1) * step == i * step + step
  {
  }

  /** After `i` steps the start is `i * step`. */
  lemma {:induction false} StartOfProduct(i: nat, step: int)
    ensures StartOf(i, step) == i * step
  {
    if i > 0 {
      StartOfProduct(i - 1, step);
      MulSucc(i - 1, step);
    }
  }

  /** The chunk starts are exactly the multiples of `step` below `n`, so the number of chunks
      is the ceiling of `n / step`. */
  lemma ChunkCountBounds(n: nat, step: int, i: nat)
    requires step >= 1
    ensures i < ChunkCount(n, step) <==> i * step < n
    ensures ChunkCount(n, step) == 0 <==> n == 0
  {
    StartsBelow(n, step, i);
    StartOfProduct(i, step);
  }

  /** With a non-negative size, chunk `i` is the plain slice `words[i*step .. min(i*step + size, N)]`:
      at most `size` words, and at least one when `size >= 1`. */
  lemma WindowIsSlice(words: seq<string>, size: int, overlap: int, i: nat)
    requires size > overlap && size >= 0
    requires i * (size - overlap) < |words|
    ensures var start := i * (size - overlap);
      Window(words, size, overlap, i) == words[start .. Min(start + size, |words|)]
    ensures |Window(words, size, overlap, i)| <= size
    ensures size >= 1 ==> |Window(words, size, overlap, i)| >= 1
  {
    StartOfProduct(i, size - overlap);
  }

  /** With a negative size Python's slice end counts from the end of the word list: a size of
      -1 and an overlap of -5 make the first chunk every word but the last. */
  lemma NegativeSizeFirstWindow(words: seq<string>)
    requires |words| >= 2
    ensures Window(words, -1, -5, 0) == words[..|words| - 1]
  {
  }

  /** The first chunk starts at word 0. */
  lemma FirstWindow(words: seq<string>, size: int, overlap: int)
    requires size > overlap && size >= 0 && |words| > 0
    ensures Window(words, size, overlap, 0) == words[..Min(size, |words|)]
  {
  }

  /** The last chunk starts below `n`, and one more step would reach past it. */
  lemma LastStart(n: nat, step: int)
    requires step >= 1 && n > 0
    ensures ChunkCount(n, step) >= 1
    ensures StartOf(ChunkCount(n, step) - 1, step) < n <= StartOf(ChunkCount(n, step) - 1, step) + step
  {
    var m := ChunkCount(n, step);
    StartsBelow(n, step, m - 1);
    StartsBelow(n, step, m);
  }

  /** With a non-negative overlap the last chunk ends at the last word. */
  lemma LastWindow(words: seq<string>, size: int, overlap: int)
    requires size > overlap >= 0 && |words| > 0
    ensures var m := ChunkCount(|words|, size - overlap);
      && m >= 1
      && 0 <= (m - 1) * (size - overlap) < |words|
      && Window(words, size, overlap, m - 1) == words[(m - 1) * (size - overlap) ..]
  {
    var step := size - overlap;
    LastStart(|words|, step);
    var m := ChunkCount(|words|, step);
    StartOfProduct(m - 1, step);
    var start := StartOf(m - 1, step);
    assert Min(start + size, |words|) == |words|;
  }

  /** With a non-negative overlap every word lies in some chunk: word `k` is in chunk `k / step`. */
  lemma Coverage(words: seq<string>, size: int, overlap: int, k: nat)
    requires size > overlap >= 0 && k < |words|
    ensures var step := size - overlap; var i := k / step;
      && i < ChunkCount(|words|, step)
      && i * step <= k < i * step + |Window(words, size, overlap, i)|
      && Window(words, size, overlap, i)[k - i * step] == words[k]
  {
    var step := size - overlap;
    var i := k / step;
    DivBounds(k, step);
    StartOfProduct(i, step);
    StartsBelow(|words|, step, i);
    CoverageAt(words, size, overlap, k, StartOf(i, step));
  }

  /** The window starting at `start` holds word `k` when `k` lies in the step after `start`. */
  lemma CoverageAt(words: seq<string>, size: int, overlap: int, k: nat, start: int)
    requires size > overlap >= 0 && k < |words|
    requires 0 <= start <= k < start + (size - overlap)
    ensures var w := WindowAt(words, size, start);
      k < start + |w| && w[k - start] == words[k]
  {
    assert WindowAt(words, size, start) == words[start .. Min(start + size, |words|)];
  }

  lemma DivBounds(k: nat, step: int)
    requires step >= 1
    ensures (k / step) * step <= k < (k / step) * step + step
  {
  }

  /** A full chunk's last `overlap` words are the next chunk's first `overlap` words. */
  lemma OverlapShared(words: seq<string>, size: int, overlap: int, i: nat)
    requires size > overlap >= 0
    requires i * (size - overlap) + size <= |words|
    requires (i + 1) * (size - overlap) < |words|
    ensures |Window(words, size, overlap, i)| == size
    ensures |Window(words, size, overlap, i + 1)| >= overlap
    ensures Window(words, size, overlap, i)[size - overlap ..] == Window(words, size, overlap, i + 1)[..overlap]
  {
    StartOfProduct(i, size - overlap);
    OverlapSharedAt(words, size, overlap, StartOf(i, size - overlap));
  }

  /** The windows starting at `start` and one step later share `overlap` words. */
  lemma OverlapSharedAt(words: seq<string>, size: int, overlap: int, start: int)
    requires size > overlap >= 0
    requires 0 <= start && start + size <= |words| && start + (size - overlap) < |words|
    ensures var step := size - overlap;
      var w := WindowAt(words, size, start);
      var w' := WindowAt(words, size, start + step);
      |w| == size && |w'| >= overlap && w[step ..] == w'[..overlap]
  {
    var step := size - overlap;
    var w := WindowAt(words, size, start);
    var w' := WindowAt(words, size, start + step);
    assert w == words[start .. start + size];
    assert w' == words[start + step .. Min(start + step + size, |words|)];
    assert w[step ..] == words[start + step .. start + size];
    assert w'[..overlap] == words[start + step .. start + size];
  }

  /** A chunk's words are words of `str.split()`, so re-splitting the chunk's string gives
      back exactly its window. */
  lemma ChunkRoundTrip(text: string, size: int, overlap: int, i: nat)
    requires size > overlap
    ensures Split(JoinWith(Window(Split(text), size, overlap, i), " ")) == Window(Split(text), size, overlap, i)
  {
    var w := Window(Split(text), size, overlap, i);
    assert AllWords(w);
    SplitJoinWords(w);
  }

  /** Undoes the overlap: the first `step` words of every chunk but the last, then the last chunk whole. */
  function Stitch(ws: seq<seq<string>>, step: nat): seq<string>
    decreases |ws|
  {
    if |ws| == 0 then []
    else if |ws| == 1 then ws[0]
    else ws[0][..Min(step, |ws[0]|)] + Stitch(ws[1..], step)
  }

  /** With a non-negative overlap, stitching the chunks back together gives the word sequence. */
  lemma StitchWindows(words: seq<string>, size: int, overlap: int)
    requires size > overlap >= 0
    ensures Stitch(Windows(words, size, overlap), size - overlap) == words
  {
    var step := size - overlap;
    var ws := Windows(words, size, overlap);
    var vs := WindowsFrom(words, size, step, 0);
    WindowsShape(words, size, overlap);
    WindowsFromLength(words, size, step, 0);
    forall i | 0 <= i < |vs|
      ensures vs[i] == ws[i]
    {
      WindowsFromAt(words, size, step, 0, i);
    }
    assert ws == vs;
    if |words| > 0 {
      StitchWindowsFrom(words, size, step, 0);
    }
  }

  /** The chunk list holds one window per loop iteration, in order. */
  lemma WindowsShape(words: seq<string>, size: int, overlap: int)
    requires size > overlap
    ensures |Windows(words, size, overlap)| == ChunkCount(|words|, size - overlap)
    ensures forall i :: 0 <= i < |Windows(words, size, overlap)| ==>
      Windows(words, size, overlap)[i] == Window(words, size, overlap, i)
  {
  }

  /** The windows the loop still produces once `start` has been reached. */
  function WindowsFrom(words: seq<string>, size: int, step: int, start: int): seq<seq<string>>
    requires step >= 1
    decreases |words| - start
  {
    if start >= |words| then []
    else [WindowAt(words, size, start)] + WindowsFrom(words, size, step, start + step)
  }

  /** From `start` on the loop produces one window per step start below the word count. */
  lemma {:induction false} WindowsFromLength(words: seq<string>, size: int, step: int, start: int)
    requires step >= 1
    ensures |WindowsFrom(words, size, step, start)| == if start >= |words| then 0 else ChunkCount(|words| - start, step)
    decreases |words| - start
  {
    if start < |words| {
      WindowsFromLength(words, size, step, start + step);
    }
  }

  /** The `k`-th window produced from `start` on starts `k` steps after `start`. */
  lemma {:induction false} WindowsFromAt(words: seq<string>, size: int, step: int, start: int, k: nat)
    requires step >= 1
    requires k < |WindowsFrom(words, size, step, start)|
    ensures var s := start + StartOf(k, step);
      WindowsFrom(words, size, step, start)[k] == WindowAt(words, size, s)
    decreases k
  {
    var vs := WindowsFrom(words, size, step, start);
    assert start < |words|;
    var rest := WindowsFrom(words, size, step, start + step);
    assert vs == [WindowAt(words, size, start)] + rest;
    if k > 0 {
      assert vs[k] == rest[k - 1];
      WindowsFromAt(words, size, step, start + step, k - 1);
      assert start + step + StartOf(k - 1, step) == start + StartOf(k, step);
    }
  }

  /** Stitching the windows produced from `start` on gives the words from `start` on. */
  lemma {:induction false} StitchWindowsFrom(words: seq<string>, size: int, step: int, start: int)
    requires 1 <= step <= size && 0 <= start < |words|
    ensures Stitch(WindowsFrom(words, size, step, start), step) == words[start ..]
    decreases |words| - start
  {
    var w := WindowAt(words, size, start);
    var rest := WindowsFrom(words, size, step, start + step);
    if start + step >= |words| {
      assert WindowsFrom(words, size, step, start) == [w];
      StitchLast(words, size, step, start);
    } else {
      StitchWindowsFrom(words, size, step, start + step);
      assert |rest| > 0;
      assert WindowsFrom(words, size, step, start) == [w] + rest;
      StitchStep(words, size, step, start);
    }
  }

  /** The last window runs from its start to the end of the words. */
  lemma StitchLast(words: seq<string>, size: int, step: int, start: int)
    requires 1 <= step <= size && 0 <= start < |words| <= start + step
    ensures WindowAt(words, size, start) == words[start ..]
  {
  }

  /** The first `step` words of a window, followed by the words from the next start, are the
      words from this window's start. */
  lemma StitchStep(words: seq<string>, size: int, step: int, start: int)
    requires 1 <= step <= size && 0 <= start && start + step < |words|
    ensures var w := WindowAt(words, size, start);
      w[..Min(step, |w|)] + words[start + step ..] == words[start ..]
  {
    var w := WindowAt(words, size, start);
    assert w == words[start .. Min(start + size, |words|)];
    assert w[..Min(step, |w|)] == words[start .. start + step];
    assert words[start ..] == words[start .. start + step] + words[start + step ..];
  }
}

=== FILE: wrappers.dfy ===
/** Failure-compatible result types shared by every module of the model. */
module Wrappers {

  /** A value that may be absent: a dictionary key that is missing, a list index that is out of range. */
  datatype Option<+T> = None | Some(value: T)

  /** The outcome of an operation that the program can abandon by raising an exception. */
  datatype Result<+T, +E> = Success(value: T) | Failure(error: E)
}
